=== FILE: README.md ===
# Zone emissions engine — a Dafny model

This project models the deterministic core of a zone CO₂e estimator. The
estimator takes a country code and a time window. It then:

- resolves a regional **factors pack**: fleet shares, fuel and grid CO₂ factors;
- pushes every sampled road edge through a **physics kernel**: a speed polynomial
  plus aerodynamic, HVAC and grade multipliers;
- scales the sample up to the whole road network;
- adds **aviation** landing/takeoff (LTO) cycles;
- builds a module-aware **uncertainty band** and a **quality flag**.

A **scenario** reruns the same engine with levers applied: an EV-share shift of
the passenger-car mix, an urban speed delta and a short-haul flight reduction.
It reports the deltas against the baseline. An **experiment** runs several
scenario presets against one shared baseline.

Quantities are Dafny `real`, except the edge and LTO cycle counts, which are `nat`. Every operation is a pure function, except one method that models the loop over the edges. The
modules follow the source files:

| module | file | source |
|---|---|---|
| `Wrappers` | wrappers.dfy | optional fields (`Option`) and the `x \|\| 0` idiom |
| `MathOps` | mathops.dfy | `Math.max`, `Math.min`, clamping |
| `Constants` | constants.dfy | constants.ts |
| `Types` | types.dfy | types.ts |
| `PhysicsEngine` | physics.dfy | services/physicsEngine.ts |
| `Packs` | packs.dfy | factors/packs.ts |
| `Registry` | registry.dfy | factors/registry.ts |
| `Quality` | quality.dfy | `computeQualityInfo` in services/orchestrator.ts |
| `Emissions` | emissions.dfy | `_computeZoneEmissions` in services/orchestrator.ts |
| `Scenario` | scenario.dfy | `runZoneScenario` in services/orchestrator.ts |
| `Experiment` | experiment.dfy | `runZoneExperiment` in services/orchestrator.ts |

The data the source fetches from providers becomes one `Observations` record:

- the sampled edges and the total edge count;
- the speed map, the weather and the LTO count;
- `cosDeg`, the cosine of an angle given in degrees.

A baseline run and its scenario run share one `Observations` value. So a
scenario with every lever at 0 reproduces its baseline exactly.

JavaScript truthiness is reproduced as written:

- a missing or zero speed becomes 30 km/h;
- a zero speed delta skips the 5 km/h floor;
- a missing flight reduction counts as 0;
- a supplied baseline replaces the computed one.

Packs are immutable values, so shifting a scenario's mix builds a new mix and never changes the pack it starts from, which the source gets by copying the mix first.

The record field `label` of packs and presets is called `title` here, because
`label` is a Dafny keyword.

**The CNG share in the fleet shift.** The shift of the EV share in
`runZoneScenario` counts CNG in the pool it takes from. It then reduces only
petrol and diesel, and leaves CNG as it is. The model keeps this behaviour. It
proves two things about it:

- for a non-negative mix that sums to 1 with a positive petrol + diesel + CNG
  pool, the total after the shift is 1 + (EV change) · CNG / pool, so it stays 1
  exactly when CNG is 0 or the EV share does not move (`Scenario.ShiftTotal`, `Scenario.ShiftKeepsTotalWithoutCng`);
- the German passenger-car mix pushed by +0.3 ends above 1
  (`Scenario.ShiftWithCngLeavesTotalAboveOne`).

Nothing in the source says which behaviour was meant, so this is recorded here
and not claimed as a defect.

## Model

| member | source | states |
|---|---|---|
| PhysicsEngine.BaseFuelConsumption | services/physicsEngine.ts:9-20 | never below 5 g/km for any speed and coefficients; exactly 5 or the polynomial at max(speed, 1), and the polynomial whenever that is at least 5; all speeds ≤ 1 give the value at speed 1 |
| PhysicsEngine.BaseFuelSpeedFloor | services/physicsEngine.ts:10-19 | the result for speed s equals the result for max(s, 1) |
| PhysicsEngine.AirDensity | services/physicsEngine.ts:26-30 | ideal gas law: ρ·R·(T + 273.15) = 100·P; ρ > 0 when P > 0 and T > −273.15 |
| PhysicsEngine.TailwindRaisesSourceAirSpeed | services/physicsEngine.ts:39-43 | as written, the wind term for a wind from straight behind is +3.6·w, so the air speed is max(speed + 3.6·w, 1) |
| PhysicsEngine.HeadwindSign | services/physicsEngine.ts:39-42 | corrected: the headwind is +wind from straight ahead and −wind from straight behind, for any heading |
| PhysicsEngine.RelativeAirSpeed | services/physicsEngine.ts:33-44 | at least 1 km/h and at least speed + the source's wind term, equal to one of the two; a wind from straight behind raises it above the vehicle speed |
| PhysicsEngine.RelativeAirSpeedIntended | services/physicsEngine.ts:39-43 | corrected: at least 1 km/h and at least speed + headwind, equal to one of the two; a wind from straight ahead raises it, and a wind from straight behind lowers it when the speed is above 1 |
| PhysicsEngine.RelativeAirSpeedStillAir | services/physicsEngine.ts:40-43 | with no wind the air speed is max(speed, 1), whatever the cosine |
| PhysicsEngine.AeroMultiplier | services/physicsEngine.ts:47-58 | within [0.5, 2.0]; with V = max(speed, 1), inside the range f · V³ · 1.225 = vAir³ · ρ, at the cap vAir³ · ρ ≥ 2 · V³ · 1.225, and at the floor vAir³ · ρ ≤ 0.5 · V³ · 1.225 |
| PhysicsEngine.AeroMultiplierStillAir | services/physicsEngine.ts:52-57 | with no wind the multiplier is the density ratio ρ/1.225, clamped to [0.5, 2.0] |
| PhysicsEngine.OfflineWeatherEastboundEdge | services/physicsEngine.ts:39-57 | in the offline adapter's weather (18 °C, 1013 hPa, 5 m/s from 270°), an edge heading 90° at 50 km/h has air speed 68 km/h and multiplier 2.0, against an intended air speed of 32 km/h |
| PhysicsEngine.HvacPower | services/physicsEngine.ts:64-66 | at least 0.5 kW; exactly 0.5 up to 20 °C, strictly more above |
| PhysicsEngine.HvacPowerMonotone | services/physicsEngine.ts:64-66 | non-decreasing in temperature |
| PhysicsEngine.HvacPowerSlope | services/physicsEngine.ts:64-66 | above 20 °C the power grows by exactly 0.03 kW per degree |
| PhysicsEngine.HvacMultiplierIce | services/physicsEngine.ts:69-80 | strictly above 1; the excess over 1, times 80 g/km and the speed floored at 10, is 200 g/kWh times the HVAC power; for speeds ≤ 10 equal to 1 + P/4 |
| PhysicsEngine.HvacMultiplierIceSpeedFloor | services/physicsEngine.ts:78-79 | every speed ≤ 10 gives the value at speed 10 |
| PhysicsEngine.HvacEnergyEv | services/physicsEngine.ts:83-86 | positive; times max(speed, 1) it gives the HVAC power back; speeds ≤ 1 give the power itself |
| PhysicsEngine.GradeMultiplier | services/physicsEngine.ts:91-99 | EV result in [0.70, 1.30] and ICE result in [0.65, 1.35]; exactly 1 at grade 0 |
| PhysicsEngine.GradeMultiplierMonotone | services/physicsEngine.ts:91-99 | non-decreasing in grade, for EV and ICE |
| PhysicsEngine.GradeMultiplierLinearRange | services/physicsEngine.ts:93-97 | for grades within ±10 % no clamp binds: 1 + 0.035·g for ICE, 1 + 0.030·g for EV |
| Registry.UpperChar | factors/registry.ts:14 | a to z move up by 32 into A to Z; every other character is unchanged |
| Registry.ToUpper | factors/registry.ts:14 | same length; each character upper-cased over ASCII |
| Registry.ToUpperIdempotent | factors/registry.ts:14 | upper-casing twice is upper-casing once |
| Registry.LookupPackKey | factors/registry.ts:17 | finds a pack exactly when the key is a pack's own key, and then that pack |
| Registry.ResolveFactorsPackId | factors/registry.ts:13-28 | always a pack id; the exact key wins; otherwise EU iff in the EU set, GLOBAL iff not |
| Registry.ResolveCaseInsensitive | factors/registry.ts:14 | inputs equal after upper-casing resolve alike, and as their upper-cased form |
| Registry.ResolveExactKeyFirst | factors/registry.ts:17-19 | an input that upper-cases to a pack key resolves to that pack, EU members included |
| Registry.ResolveIdempotent | factors/registry.ts:17-19 | resolving the key of a result gives the same result |
| Registry.ResolveExamplesOwnPack | factors/registry.ts:13-19 | "de" gives DE and "fi" gives FI, although both are EU members |
| Registry.ResolveExamplesEu | factors/registry.ts:22-24 | "se" and "fr" give EU |
| Registry.ResolveExamplesGlobal | factors/registry.ts:27 | "zz" and "gb" give GLOBAL |
| Packs.Pack | factors/packs.ts:19-146 | each pack's id is its key; all shares ≥ 0 and each class sums to 1; all CO₂ factors > 0 |
| Packs.Euro5CurveAboveFloor | factors/packs.ts:9-10 | delta, epsilon, zeta and eta are 0; base consumption is the quadratic 0.0018v² − 0.11v + 105 at v = max(speed, 1), and that quadratic is never below 103.3 for any v, so the 5 g/km floor never binds |
| Quality.ComputeQualityInfo | services/orchestrator.ts:36-88 | never Qx; Q1 iff both live feeds and a country pack; Q3 iff no live feed, or one feed with GLOBAL; each flag's multipliers; low < 1 < high; notes are traffic, weather, pack in that order |
| Quality.LiveRunQuality | services/orchestrator.ts:99-114 | with both feeds live, a run is Q1 for FI, DE, US and IN and Q2 for EU and GLOBAL |
| Wrappers.OrZero | services/orchestrator.ts:117 | an absent value counts as 0, a present one as itself |
| Emissions.FetchedSpeed | services/orchestrator.ts:128 | never 0; the map's speed when present and non-zero, 30 otherwise |
| Emissions.EdgeSpeed | services/orchestrator.ts:128-132 | a zero delta leaves the fetched speed; a non-zero delta gives exactly max(5, speed + delta) |
| Emissions.EdgeFuelGrams | services/orchestrator.ts:134-140 | non-negative on an edge of non-negative length |
| Emissions.FleetGrams | services/orchestrator.ts:142-145 | non-negative for non-negative inputs; 0 when petrol and diesel shares are 0 |
| Emissions.FleetGramsReadsPetrolDiesel | services/orchestrator.ts:145 | depends on the mix only through petrol and diesel |
| Emissions.FleetGramsUnitValues | services/orchestrator.ts:142-145 | 1000 g of fuel gives the petrol factor / 0.75 for an all-petrol fleet and the diesel factor / 0.85 for an all-diesel fleet |
| Emissions.EdgeEvKwh | services/orchestrator.ts:149-152 | non-negative on an edge of non-negative length |
| Emissions.EvGrams | services/orchestrator.ts:154 | non-negative for non-negative inputs; 0 when the EV share is 0; energy times grid intensity for an all-EV fleet |
| Emissions.EdgeFuelLinearInLength | services/orchestrator.ts:140 | an edge's fuel is its length times the fuel of the same edge at 1 km |
| Emissions.EdgeEvLinearInLength | services/orchestrator.ts:152 | an edge's EV energy is its length times the energy of the same edge at 1 km |
| Emissions.OfflineWeatherEdgeTerms | services/orchestrator.ts:128-152 | a flat 1 km edge heading 90° at 50 km/h in the offline weather burns 104 · 2.0 · 1.025 = 213.2 g of fuel, and an EV uses 0.15 · 2.0 + 0.5/50 = 0.31 kWh |
| Emissions.SumEdges | services/orchestrator.ts:124-156 | totals non-negative for non-negative lengths and factors; EV total 0 with no EVs; fleet total 0 with no petrol or diesel |
| Emissions.SumEdgesIgnoresCng | services/orchestrator.ts:145 | sample totals do not change with the CNG share |
| Emissions.SumEdgesSingleton | services/orchestrator.ts:145-155 | one edge alone contributes exactly its combustion and EV grams |
| Emissions.SumEdgesAppend | services/orchestrator.ts:124-156 | the totals over two runs of edges are the sums of their totals |
| Emissions.SumEdgesLoop | services/orchestrator.ts:124-156 | the left-to-right loop from zero totals computes the same totals as the fold |
| Emissions.UncertaintyBand | services/orchestrator.ts:166-175 | low + high = 2·total and high − low = 2·(0.20·fleet + 0.30·EV + 0.25·aviation) |
| Emissions.BandBracketsTotal | services/orchestrator.ts:166-175 | with non-negative modules low ≤ total ≤ high, low within [0.7, 0.8]·total, high within [1.2, 1.3]·total |
| Emissions.AviationOnlyBand | services/orchestrator.ts:166-175 | aviation alone gives exactly 0.75× and 1.25× |
| Emissions.EffectiveLevers | services/orchestrator.ts:117-121 | an absent mix override gives the pack's passenger-car mix; absent speed and flight levers count as 0 |
| Emissions.ScaleToNetwork | services/orchestrator.ts:158-160 | tonnes · sampled · 10⁶ = grams · all edges; sign kept; 0 stays 0 |
| Emissions.AviationTonnes | services/orchestrator.ts:162 | 3.15 t per LTO cycle |
| Emissions.FlightTonnes | services/orchestrator.ts:117 | lto · (1 − reduction) · 3.15 t |
| Emissions.RunModules | services/orchestrator.ts:117-162 | aviation is the reduced flight term; roadsEv 0 with no EVs; roadsFleet 0 with no petrol or diesel; both road modules are the sample totals scaled to the network |
| Emissions.RunResult | services/orchestrator.ts:164-197 | total = sum of modules with the band around it; the pack id, modules and fleet shares of the run; Q1 or Q2 by pack |
| Emissions.ComputeZoneEmissions | services/orchestrator.ts:93-198 | the pack id is the resolved country; modules are those of the effective levers; the result is consistent; quality flag and fleet shares as used |
| Emissions.RunModulesNonNegative | services/orchestrator.ts:124-162 | non-negative lengths, mix and a reduction ≤ 1 give non-negative modules |
| Emissions.BaselineNonNegative | services/orchestrator.ts:164-175 | a baseline run has non-negative modules and low ≤ total ≤ high |
| Emissions.RunIgnoresCngShare | services/orchestrator.ts:145 | changing only the CNG share changes no module |
| Emissions.RunAviationOnly | services/orchestrator.ts:164-175 | a mix with no petrol, diesel or EV leaves aviation alone, with band 0.75× and 1.25× |
| Scenario.ShiftFleetMix | services/orchestrator.ts:218-231 | EV becomes clamp(ev + δ, 0, 1); CNG unchanged; a pool ≤ 0 leaves petrol and diesel; otherwise each is its share times one kept fraction (pool − EV change)/pool, floored at 0; non-negative mixes stay non-negative |
| Scenario.ShiftZeroDeltaIdentity | services/orchestrator.ts:222-231 | a zero delta leaves an in-range mix unchanged |
| Scenario.ShiftExample | services/orchestrator.ts:218-231 | {0.5, 0.5, EV 0, CNG 0} with δ = 0.2 gives {0.4, 0.4, EV 0.2} |
| Scenario.ProportionalTakeScales | services/orchestrator.ts:228-229 | taking the change in proportion to a share is scaling the share by the kept fraction |
| Scenario.ShiftKeepsPetrolDieselRatio | services/orchestrator.ts:226-229 | the petrol to diesel ratio is kept, with or without CNG |
| Scenario.ShiftScalesWithoutFloor | services/orchestrator.ts:223-229 | for a non-negative mix summing to 1 with a positive petrol + diesel + CNG pool, neither floor binds, and the kept fraction is ≥ 0 |
| Scenario.ShiftTotal | services/orchestrator.ts:218-231 | for a non-negative mix summing to 1 with a positive petrol + diesel + CNG pool, shares stay ≥ 0 and the total becomes 1 + EV change · CNG/pool |
| Scenario.ShiftKeepsTotalWithoutCng | services/orchestrator.ts:225-231 | without CNG and with some petrol or diesel, a mix summing to 1 still sums to 1 and stays non-negative |
| Scenario.ShiftWithCngLeavesTotalAboveOne | services/orchestrator.ts:225-231 | the German mix shifted by +0.3 sums to more than 1 |
| Scenario.ComputeDeltas | services/orchestrator.ts:243-256 | each delta is scenario minus baseline; percent × baseline = total delta when the baseline is positive, else 0; total = roads + aviation for consistent results; equal results give zero deltas |
| Scenario.RunZoneScenario | services/orchestrator.ts:210-258 | a supplied baseline is used as is; the scenario result is consistent and for the resolved pack; with a consistent baseline, total delta = roads + aviation deltas; the scenario's fleet shares have EV = clamp(pack EV + δ, 0, 1) and the pack's CNG |
| Scenario.PrecomputedBaselineAgrees | services/orchestrator.ts:215 | supplying the computed baseline changes nothing |
| Scenario.ScenarioLevers | services/orchestrator.ts:234-238 | the scenario's levers are the shifted mix, the speed delta and the reduction; the baseline's are the pack mix, 0, 0 |
| Scenario.ZeroLeversZeroDeltas | services/orchestrator.ts:210-258 | all levers at 0 reproduce the baseline, and all four deltas are 0 |
| Scenario.FlightTonnesReduction | services/orchestrator.ts:117 | removing a fraction of the cycles removes that fraction of lto · 3.15 t |
| Scenario.RunAviationModule | services/orchestrator.ts:116-117 | any run's aviation module is the flight term under its override's reduction |
| Scenario.RunAviationPair | services/orchestrator.ts:116-117 | a run with reduction r has aviation equal to the flight term at r, and the baseline run has it at 0 |
| Scenario.OverrideAviationDelta | services/orchestrator.ts:116-117 | a reduction r lowers aviation by lto · r · 3.15 t against the baseline |
| Scenario.ScenarioResultAviationDelta | services/orchestrator.ts:255 | a scenario result's aviation delta is −lto · r · 3.15 t |
| Scenario.ScenarioAviationDelta | services/orchestrator.ts:243-255 | against the computed baseline, a scenario's aviation delta is −lto · r · 3.15 t |
| Scenario.ScenarioResultRoadsUnmoved | services/orchestrator.ts:243-254 | a result built from the computed baseline and a run with no EV shift and no speed delta has roads delta 0 |
| Scenario.ScenarioRoadsUnmoved | services/orchestrator.ts:243-254 | with no EV shift and no speed delta the roads delta is 0 |
| Experiment.RunPresets | services/orchestrator.ts:279-289 | one run per preset, in order, each with its preset's id and title, against the supplied baseline |
| Experiment.RunPresetsStandalone | services/orchestrator.ts:283-284 | against the computed baseline each run equals a stand-alone scenario run |
| Experiment.BaselineEntry | services/orchestrator.ts:268-277 | the baseline entry compares the baseline with itself |
| Experiment.RunZoneExperiment | services/orchestrator.ts:264-295 | the baseline entry has scenario = baseline and zero deltas; one run per preset in order with id and title copied; every run shares the one baseline and equals a stand-alone run |
| Experiment.ExperimentZeroPresetNoChange | services/orchestrator.ts:264-295 | a preset with all levers 0 shows no change and zero deltas |
| Experiment.FlightShiftPresetEffect | factors/scenarioPresets.ts:24-33 | the flight-shift preset leaves roads unchanged and lowers aviation by lto · 1.575 t |
| Experiment.PresetAviationDeltas | factors/scenarioPresets.ts:4-43 | the EV push and urban speed presets leave aviation unchanged; the combined preset lowers it by lto · 1.575 t |

## Left out

- The React components, App.tsx and the result view are left out. They only render, sort and format results.
- services/apiAdapters.ts is left out. Its mocked provider calls become the fields of `Observations`.
- `clipAndSampleNetwork` is left out. It generates random edges; the sampled edges and the total edge count are inputs instead.
- The source samples the network and calls the providers afresh in every run, so a baseline and its scenario may see different edges, speeds and weather. The model gives both runs one `Observations` value. Differences between the runs come only from the levers, and properties such as `Scenario.ZeroLeversZeroDeltas` rely on this.
- `async` and `Promise.all` are left out. Runs are plain function calls, and the presets are mapped sequentially in order.
- `Math.cos` and `Math.PI` become the `cosDeg` parameter, a cosine of an angle in degrees with no further assumptions.
- Floating point is left out. All arithmetic is exact over the reals, so identities such as "shares sum to 1" hold exactly, which IEEE-754 doubles need not give.
- Infinite and NaN values are left out. `Emissions.Usable` excludes the two inputs where the source divides by zero: a temperature of exactly −273.15 °C (air density) and an empty edge sample (scaling).
- The `data_sources` provenance strings are left out, because no computation reads them.
- Registry.ToUpper: models `toUpperCase` over ASCII only; other characters stay as they are. JavaScript upper-cases some of them into ASCII letters: "ﬁ" (U+FB01) becomes "FI" and "ı" (U+0131) becomes "I". So the source resolves "ﬁ" to FI and "ın" to IN, where the model gives GLOBAL.
- factors/scenarioPresets.ts is data only. Its four presets are transcribed as constants, with ids, labels, descriptions and inputs copied in full.
- The light-commercial and heavy-duty mixes are transcribed and checked, but no run uses them, just as in the source.
- PhysicsEngine.AirDensity: requires a temperature other than −273.15 °C. There the source divides by zero: the density is +Infinity or −Infinity for a non-zero pressure, and NaN for a zero pressure.
- PhysicsEngine.AeroMultiplier: requires a temperature other than −273.15 °C. There the source's clamp turns the infinite density into 2.0 for a positive pressure or 0.5 for a negative one, so its result stays finite; only a zero pressure gives NaN. Reals have no infinite value to model this with.
- Emissions.ComputeZoneEmissions: requires `Emissions.Usable`, a non-empty edge sample and a temperature other than −273.15 °C. With an empty sample the source's scaling divides by zero; at that temperature it behaves as `PhysicsEngine.AeroMultiplier` describes.
- Scenario.RunZoneScenario: requires `Emissions.Usable`, for the reason given for `Emissions.ComputeZoneEmissions`.
- Experiment.RunZoneExperiment: requires `Emissions.Usable`, for the reason given for `Emissions.ComputeZoneEmissions`.

## Findings

| source | as written | input that shows it | evidently intended | confidence | as-written member | corrected member |
|---|---|---|---|---|---|---|
| services/physicsEngine.ts:39-43 | the wind is flipped to the direction it blows towards, and its component along the heading, named `v_headwind`, is added to the vehicle speed | the offline adapter's wind of 5 m/s from 270° on an edge heading 90° at 50 km/h, a wind from straight behind: the air speed is 68 km/h and the aerodynamic multiplier 2.0 | the headwind component, positive for a wind from ahead, so a wind from behind lowers the air speed (32 km/h here) | medium, not executed | PhysicsEngine.OfflineWeatherEastboundEdge | PhysicsEngine.RelativeAirSpeedIntended |

The model's air speed, aerodynamic multiplier and the whole pipeline compute
what the source computes: `PhysicsEngine.RelativeAirSpeed` adds the source's
wind term, `PhysicsEngine.WindAlongTravelKmh`. The corrected air speed,
`PhysicsEngine.RelativeAirSpeedIntended`, and the headwind it is built on,
`PhysicsEngine.HeadwindKmh`, stand beside it and are not used by the runs.

=== FILE: constants.dfy ===
/** Physical constants and per-module uncertainties (constants.ts). */
module Constants {

  /** Specific gas constant for dry air, J/(kg·K). */
  const RSpecificDryAir: real := 287.058

  /** Reference air density at sea level, 15 °C and 1013.25 hPa, in kg/m³. */
  const RhoRefDensity: real := 1.225

  /** Offset between degrees Celsius and Kelvin. */
  const KelvinOffset: real := 273.15

  /** Relative uncertainty of each emissions module. */
  datatype ModuleUncertainty = ModuleUncertainty(roadsFleet: real, roadsEv: real, aviation: real)

  /** ±20% for the combustion fleet, ±30% for EVs, ±25% for aviation. */
  const ModuleUncertainties: ModuleUncertainty := ModuleUncertainty(0.20, 0.30, 0.25)
}

=== FILE: emissions.dfy ===
/** One emissions run (_computeZoneEmissions in services/orchestrator.ts): the
    per-edge fold over the sampled network, rescaling to the full network, the
    aviation term and the module-aware uncertainty band. Network sampling and
    the three data providers are replaced by an `Observations` value. */
module Emissions {
  import opened Wrappers
  import opened Constants
  import opened Types
  import opened MathOps
  import opened PhysicsEngine
  import opened Packs
  import opened Registry
  import opened Quality

  /** Scenario levers of one run; an absent field keeps the baseline behaviour. */
  datatype Overrides = Overrides(fleetMix: Option<FleetMix>, speedDeltaKmh: Option<real>, ltoReduction: Option<real>)

  const NoOverrides: Overrides := Overrides(None, None, None)

  /** What network sampling and the speed, weather and flight-activity providers
      hand to one run: the sampled edges, the number of edges in the zone, the
      per-edge speeds in km/h, one weather snapshot, the LTO cycle count, and
      `cosDeg`, the cosine of an angle given in degrees. */
  datatype Observations = Observations(
    sampledEdges: seq<Edge>,
    allEdgesCount: nat,
    speeds: map<string, real>,
    weather: Weather,
    ltoCount: nat,
    cosDeg: real -> real)

  /** The sampler always returns edges, and the air density needs a temperature
      other than absolute zero. */
  predicate Usable(obs: Observations) {
    |obs.sampledEdges| > 0 && obs.weather.temp != -KelvinOffset
  }

  /** The driving conditions every edge of one run shares. `speedDelta` is 0
      when no speed lever is active. */
  datatype Conditions = Conditions(
    speeds: map<string, real>,
    speedDelta: real,
    weather: Weather,
    cosDeg: real -> real)

  /** Conditions plus the fleet mix and CO₂ factors of one run. */
  datatype EdgeEnv = EdgeEnv(cond: Conditions, mix: FleetMix, co2: FuelCo2Factors)

  /** `speeds.get(id) || 30`: a missing or zero fetched speed reads as 30 km/h. */
  function FetchedSpeed(speeds: map<string, real>, id: string): (v: real)
    ensures v != 0.0
    ensures id in speeds && speeds[id] != 0.0 ==> v == speeds[id]
    ensures id !in speeds || speeds[id] == 0.0 ==> v == 30.0
  {
    if id in speeds && speeds[id] != 0.0 then speeds[id] else 30.0
  }

  /** The speed used on one edge: the fetched speed, moved by an active
      (nonzero) delta with a 5 km/h floor; a zero delta applies no floor. */
  function EdgeSpeed(speeds: map<string, real>, id: string, speedDelta: real): (v: real)
    ensures speedDelta == 0.0 ==> v == FetchedSpeed(speeds, id)
    ensures speedDelta != 0.0 ==> v >= 5.0
    ensures speedDelta != 0.0 && FetchedSpeed(speeds, id) + speedDelta >= 5.0 ==> v == FetchedSpeed(speeds, id) + speedDelta
    ensures speedDelta != 0.0 && FetchedSpeed(speeds, id) + speedDelta < 5.0 ==> v == 5.0
  {
    var fetched := FetchedSpeed(speeds, id);
    if speedDelta != 0.0 then Max(5.0, fetched + speedDelta) else fetched
  }

  predicate EnvNonNegative(env: EdgeEnv) {
    && MixNonNegative(env.mix)
    && env.co2.petrolPerLitre >= 0.0 && env.co2.dieselPerLitre >= 0.0 && env.co2.gridPerKwh >= 0.0
  }

  predicate LengthsNonNegative(edges: seq<Edge>) {
    forall i :: 0 <= i < |edges| ==> edges[i].lengthKm >= 0.0
  }

  /** A product of four non-negative factors and a length is non-negative
      whenever the length is. */
  function ScaledProduct(a: real, b: real, c: real, d: real, lengthKm: real): (g: real)
    requires a >= 0.0 && b >= 0.0 && c >= 0.0 && d >= 0.0
    ensures lengthKm >= 0.0 ==> g >= 0.0
  {
    MulNonNegative(a, b);
    MulNonNegative(a * b, c);
    MulNonNegative(a * b * c, d);
    if lengthKm >= 0.0 then MulNonNegative(a * b * c * d, lengthKm); a * b * c * d * lengthKm
    else a * b * c * d * lengthKm
  }

  /** Grams of fuel burnt on one edge by a combustion car: base consumption
      times the aerodynamic, HVAC and grade multipliers, times the length. */
  function EdgeFuelGrams(edge: Edge, cond: Conditions): (g: real)
    requires cond.weather.temp != -KelvinOffset
    ensures edge.lengthKm >= 0.0 ==> g >= 0.0
  {
    var v := EdgeSpeed(cond.speeds, edge.id, cond.speedDelta);
    var fcBase := BaseFuelConsumption(v, Euro5);
    var fAero := AeroMultiplier(v, cond.weather, edge.bearing, cond.cosDeg);
    var fAcIce := HvacMultiplierIce(v, cond.weather.temp);
    var mGradeIce := GradeMultiplier(edge.gradePercent, false);
    ScaledProduct(fcBase, fAero, fAcIce, mGradeIce, edge.lengthKm)
  }

  /** Grams CO₂e of one edge for the combustion fleet: the fuel burnt, converted
      through petrol (0.75 kg/L) and diesel (0.85 kg/L) factors, weighted by the
      petrol and diesel shares; `fcPetrolG` is the edge's fuel in grams. The
      CNG share plays no part. */
  function FleetGrams(fcPetrolG: real, mix: FleetMix, co2: FuelCo2Factors): (g: real)
    ensures fcPetrolG >= 0.0 && MixNonNegative(mix) && co2.petrolPerLitre >= 0.0 && co2.dieselPerLitre >= 0.0 ==> g >= 0.0
    ensures mix.petrol == 0.0 && mix.diesel == 0.0 ==> g == 0.0
  {
    var co2ePetrol := (fcPetrolG / 1000.0) * (co2.petrolPerLitre / 0.75);
    var co2eDiesel := (fcPetrolG / 1000.0) * (co2.dieselPerLitre / 0.85);
    co2ePetrol * mix.petrol + co2eDiesel * mix.diesel
  }

  /** Energy in kWh one EV uses on an edge: 0.15 kWh/km scaled by the
      aerodynamic and EV grade multipliers, plus the HVAC energy, times the length. */
  function EdgeEvKwh(edge: Edge, cond: Conditions): (e: real)
    requires cond.weather.temp != -KelvinOffset
    ensures edge.lengthKm >= 0.0 ==> e >= 0.0
  {
    var v := EdgeSpeed(cond.speeds, edge.id, cond.speedDelta);
    var fAero := AeroMultiplier(v, cond.weather, edge.bearing, cond.cosDeg);
    var eBaseKwhKm := 0.15;
    var mGradeEv := GradeMultiplier(edge.gradePercent, true);
    var eHvacKwhKm := HvacEnergyEv(v, cond.weather.temp);
    EvEnergy(eBaseKwhKm, fAero, mGradeEv, eHvacKwhKm, edge.lengthKm)
  }

  /** (base · aero · grade + hvac) per km times the length: non-negative for
      non-negative terms and length. */
  function EvEnergy(eBaseKwhKm: real, fAero: real, mGradeEv: real, eHvacKwhKm: real, lengthKm: real): (e: real)
    requires eBaseKwhKm >= 0.0 && fAero >= 0.0 && mGradeEv >= 0.0 && eHvacKwhKm >= 0.0
    ensures lengthKm >= 0.0 ==> e >= 0.0
  {
    MulNonNegative(eBaseKwhKm, fAero);
    MulNonNegative(eBaseKwhKm * fAero, mGradeEv);
    var perKm := eBaseKwhKm * fAero * mGradeEv + eHvacKwhKm;
    if lengthKm >= 0.0 then MulNonNegative(perKm, lengthKm); perKm * lengthKm
    else perKm * lengthKm
  }

  /** Grams CO₂e of one edge for the EV fleet: the edge's EV energy through
      the grid intensity, weighted by the EV share. */
  function EvGrams(eEdgeKwh: real, mix: FleetMix, gridPerKwh: real): (g: real)
    ensures eEdgeKwh >= 0.0 && mix.ev >= 0.0 && gridPerKwh >= 0.0 ==> g >= 0.0
    ensures mix.ev == 0.0 ==> g == 0.0
    ensures mix.ev == 1.0 ==> g == eEdgeKwh * gridPerKwh
  {
    assert eEdgeKwh >= 0.0 && gridPerKwh >= 0.0 ==> eEdgeKwh * gridPerKwh >= 0.0;
    (eEdgeKwh * gridPerKwh) * mix.ev
  }

  /** The combustion grams read only the petrol and diesel shares. */
  lemma FleetGramsReadsPetrolDiesel(fcPetrolG: real, m1: FleetMix, m2: FleetMix, co2: FuelCo2Factors)
    requires m1.petrol == m2.petrol && m1.diesel == m2.diesel
    ensures FleetGrams(fcPetrolG, m1, co2) == FleetGrams(fcPetrolG, m2, co2)
  {
  }

  /** A litre-equivalent kilogram of fuel (1000 g) emits the petrol factor
      over 0.75 for an all-petrol fleet and the diesel factor over 0.85 for an
      all-diesel fleet. */
  lemma FleetGramsUnitValues(co2: FuelCo2Factors)
    ensures FleetGrams(1000.0, FleetMix(1.0, 0.0, 0.0, 0.0), co2) == co2.petrolPerLitre / 0.75
    ensures FleetGrams(1000.0, FleetMix(0.0, 1.0, 0.0, 0.0), co2) == co2.dieselPerLitre / 0.85
  {
  }

  lemma ScaledProductLinear(a: real, b: real, c: real, d: real, lengthKm: real)
    requires a >= 0.0 && b >= 0.0 && c >= 0.0 && d >= 0.0
    ensures ScaledProduct(a, b, c, d, lengthKm) == lengthKm * ScaledProduct(a, b, c, d, 1.0)
  {
  }

  lemma EvEnergyLinear(eBaseKwhKm: real, fAero: real, mGradeEv: real, eHvacKwhKm: real, lengthKm: real)
    requires eBaseKwhKm >= 0.0 && fAero >= 0.0 && mGradeEv >= 0.0 && eHvacKwhKm >= 0.0
    ensures EvEnergy(eBaseKwhKm, fAero, mGradeEv, eHvacKwhKm, lengthKm)
            == lengthKm * EvEnergy(eBaseKwhKm, fAero, mGradeEv, eHvacKwhKm, 1.0)
  {
  }

  /** The fuel burnt on an edge is proportional to its length: the edge is its
      per-kilometre value times the length. */
  lemma EdgeFuelLinearInLength(edge: Edge, cond: Conditions)
    requires cond.weather.temp != -KelvinOffset
    ensures EdgeFuelGrams(edge, cond) == edge.lengthKm * EdgeFuelGrams(edge.(lengthKm := 1.0), cond)
  {
    var v := EdgeSpeed(cond.speeds, edge.id, cond.speedDelta);
    ScaledProductLinear(BaseFuelConsumption(v, Euro5), AeroMultiplier(v, cond.weather, edge.bearing, cond.cosDeg),
                        HvacMultiplierIce(v, cond.weather.temp), GradeMultiplier(edge.gradePercent, false),
                        edge.lengthKm);
  }

  /** The EV energy on an edge is proportional to its length. */
  lemma EdgeEvLinearInLength(edge: Edge, cond: Conditions)
    requires cond.weather.temp != -KelvinOffset
    ensures EdgeEvKwh(edge, cond) == edge.lengthKm * EdgeEvKwh(edge.(lengthKm := 1.0), cond)
  {
    var v := EdgeSpeed(cond.speeds, edge.id, cond.speedDelta);
    EvEnergyLinear(0.15, AeroMultiplier(v, cond.weather, edge.bearing, cond.cosDeg),
                   GradeMultiplier(edge.gradePercent, true), HvacEnergyEv(v, cond.weather.temp), edge.lengthKm);
  }

  /** A 1 km flat edge heading east at 50 km/h, no speed lever, in the offline
      adapter's weather: 104 g/km base consumption times the capped aerodynamic
      multiplier 2.0 and the HVAC multiplier 1.025 gives 213.2 g of fuel, and
      an EV uses 0.15 · 2.0 + 0.5/50 = 0.31 kWh. */
  lemma OfflineWeatherEdgeTerms(cosDeg: real -> real)
    requires cosDeg(-360.0) == 1.0
    ensures var cond := Conditions(map["e" := 50.0], 0.0, Weather(18.0, 1013.0, 5.0, 270.0), cosDeg);
            var edge := Edge("e", 1.0, 90.0, 0.0);
            EdgeFuelGrams(edge, cond) == 213.2 && EdgeEvKwh(edge, cond) == 0.31
  {
    var cond := Conditions(map["e" := 50.0], 0.0, Weather(18.0, 1013.0, 5.0, 270.0), cosDeg);
    assert EdgeSpeed(cond.speeds, "e", 0.0) == 50.0;
    OfflineWeatherEastboundEdge(cosDeg);
    assert SpeedPolynomial(50.0, Euro5) == 104.0;
    assert BaseFuelConsumption(50.0, Euro5) == 104.0;
    assert HvacPower(18.0) == 0.5;
    assert HvacMultiplierIce(50.0, 18.0) == 1.025;
    assert HvacEnergyEv(50.0, 18.0) == 0.01;
    assert GradeMultiplier(0.0, false) == 1.0 && GradeMultiplier(0.0, true) == 1.0;
  }

  datatype SampleTotals = SampleTotals(fleetGrams: real, evGrams: real)

  /** The loop over the sampled edges, accumulating both grams totals. */
  function SumEdges(edges: seq<Edge>, env: EdgeEnv): (t: SampleTotals)
    requires env.cond.weather.temp != -KelvinOffset
    ensures LengthsNonNegative(edges) && EnvNonNegative(env) ==> t.fleetGrams >= 0.0 && t.evGrams >= 0.0
    ensures env.mix.ev == 0.0 ==> t.evGrams == 0.0
    ensures env.mix.petrol == 0.0 && env.mix.diesel == 0.0 ==> t.fleetGrams == 0.0
    decreases |edges|
  {
    if |edges| == 0 then SampleTotals(0.0, 0.0)
    else
      var rest := SumEdges(edges[1..], env);
      var fleet := FleetGrams(EdgeFuelGrams(edges[0], env.cond), env.mix, env.co2);
      var ev := EvGrams(EdgeEvKwh(edges[0], env.cond), env.mix, env.co2.gridPerKwh);
      assert LengthsNonNegative(edges) ==> edges[0].lengthKm >= 0.0 && LengthsNonNegative(edges[1..]);
      SampleTotals(fleet + rest.fleetGrams, ev + rest.evGrams)
  }

  /** One edge's grams do not depend on the CNG share of the mix. */
  lemma EdgeGramsIgnoreCng(edge: Edge, env: EdgeEnv, cng: real)
    requires env.cond.weather.temp != -KelvinOffset
    ensures var env' := env.(mix := env.mix.(cng := cng));
            && FleetGrams(EdgeFuelGrams(edge, env.cond), env.mix, env.co2)
               == FleetGrams(EdgeFuelGrams(edge, env'.cond), env'.mix, env'.co2)
            && EvGrams(EdgeEvKwh(edge, env.cond), env.mix, env.co2.gridPerKwh)
               == EvGrams(EdgeEvKwh(edge, env'.cond), env'.mix, env'.co2.gridPerKwh)
  {
    var env' := env.(mix := env.mix.(cng := cng));
    FleetGramsReadsPetrolDiesel(EdgeFuelGrams(edge, env.cond), env.mix, env'.mix, env.co2);
  }

  /** Sample totals do not depend on the CNG share of the mix. */
  lemma {:induction false} SumEdgesIgnoresCng(edges: seq<Edge>, env: EdgeEnv, cng: real)
    requires env.cond.weather.temp != -KelvinOffset
    ensures SumEdges(edges, env) == SumEdges(edges, env.(mix := env.mix.(cng := cng)))
    decreases |edges|
  {
    if |edges| > 0 {
      SumEdgesIgnoresCng(edges[1..], env, cng);
      EdgeGramsIgnoreCng(edges[0], env, cng);
    }
  }

  /** One edge alone contributes its combustion and EV grams. */
  lemma {:induction false} SumEdgesSingleton(edge: Edge, env: EdgeEnv)
    requires env.cond.weather.temp != -KelvinOffset
    ensures SumEdges([edge], env)
            == SampleTotals(FleetGrams(EdgeFuelGrams(edge, env.cond), env.mix, env.co2),
                            EvGrams(EdgeEvKwh(edge, env.cond), env.mix, env.co2.gridPerKwh))
  {
    assert [edge][1..] == [];
  }

  /** The totals of two runs of edges add up: the fold is a sum over edges. */
  lemma {:induction false} SumEdgesAppend(a: seq<Edge>, b: seq<Edge>, env: EdgeEnv)
    requires env.cond.weather.temp != -KelvinOffset
    ensures SumEdges(a + b, env).fleetGrams == SumEdges(a, env).fleetGrams + SumEdges(b, env).fleetGrams
    ensures SumEdges(a + b, env).evGrams == SumEdges(a, env).evGrams + SumEdges(b, env).evGrams
    decreases |a|
  {
    if |a| == 0 {
      assert a + b == b;
    } else {
      assert (a + b)[0] == a[0];
      assert (a + b)[1..] == a[1..] + b;
      SumEdgesAppend(a[1..], b, env);
    }
  }

  /** The source's loop: both totals start at 0 and each edge's grams are
      added in order. It computes the same totals as the fold. */
  method SumEdgesLoop(edges: seq<Edge>, env: EdgeEnv) returns (t: SampleTotals)
    requires env.cond.weather.temp != -KelvinOffset
    ensures t == SumEdges(edges, env)
  {
    var fleet := 0.0;
    var ev := 0.0;
    var i := 0;
    while i < |edges|
      invariant 0 <= i <= |edges|
      invariant SampleTotals(fleet, ev) == SumEdges(edges[..i], env)
    {
      SumEdgesAppend(edges[..i], [edges[i]], env);
      SumEdgesSingleton(edges[i], env);
      assert edges[..i + 1] == edges[..i] + [edges[i]];
      fleet := fleet + FleetGrams(EdgeFuelGrams(edges[i], env.cond), env.mix, env.co2);
      ev := ev + EvGrams(EdgeEvKwh(edges[i], env.cond), env.mix, env.co2.gridPerKwh);
      i := i + 1;
    }
    assert edges[..|edges|] == edges;
    t := SampleTotals(fleet, ev);
  }

  /** The low and high ends of the uncertainty band, in tonnes. */
  datatype Band = Band(low: real, high: real)

  function ModuleTotal(m: ByModule): real {
    m.roadsFleet + m.roadsEv + m.aviation
  }

  /** Module-aware band: each module widened by its own relative uncertainty,
      the ends summed across modules. */
  function UncertaintyBand(m: ByModule): (b: Band)
    ensures b.low + b.high == 2.0 * ModuleTotal(m)
    ensures b.high - b.low == 2.0 * (0.20 * m.roadsFleet + 0.30 * m.roadsEv + 0.25 * m.aviation)
  {
    var u := ModuleUncertainties;
    Band(
      m.roadsFleet * (1.0 - u.roadsFleet) + m.roadsEv * (1.0 - u.roadsEv) + m.aviation * (1.0 - u.aviation),
      m.roadsFleet * (1.0 + u.roadsFleet) + m.roadsEv * (1.0 + u.roadsEv) + m.aviation * (1.0 + u.aviation))
  }

  /** With non-negative modules the band brackets the total, and lies between
      the tightest (±20%) and loosest (±30%) of the module uncertainties. */
  lemma BandBracketsTotal(m: ByModule)
    requires m.roadsFleet >= 0.0 && m.roadsEv >= 0.0 && m.aviation >= 0.0
    ensures UncertaintyBand(m).low <= ModuleTotal(m) <= UncertaintyBand(m).high
    ensures 0.7 * ModuleTotal(m) <= UncertaintyBand(m).low <= 0.8 * ModuleTotal(m)
    ensures 1.2 * ModuleTotal(m) <= UncertaintyBand(m).high <= 1.3 * ModuleTotal(m)
  {
  }

  /** A run with aviation only gets exactly ±25%. */
  lemma AviationOnlyBand(aviation: real)
    ensures UncertaintyBand(ByModule(0.0, 0.0, aviation)) == Band(0.75 * aviation, 1.25 * aviation)
  {
  }

  /** An emissions result whose total is the sum of its modules and whose band
      is the module-aware band of those modules. */
  predicate Consistent(r: EmissionsResult) {
    && r.co2eTonnes == ModuleTotal(r.byModule)
    && Band(r.lowEstimateTonnes, r.highEstimateTonnes) == UncertaintyBand(r.byModule)
  }

  /** The levers a run actually applies, after JavaScript's truthiness: the
      override mix replaces the pack's passenger-car mix wholesale; an absent
      speed delta or flight reduction reads as 0, and a zero speed delta is
      skipped altogether. */
  datatype Levers = Levers(fleetMix: FleetMix, speedDelta: real, ltoReduction: real)

  function EffectiveLevers(id: PackId, ov: Overrides): (lv: Levers)
    ensures ov.fleetMix.None? ==> lv.fleetMix == Pack(id).fleetMix.passengerCar
    ensures ov.fleetMix.Some? ==> lv.fleetMix == ov.fleetMix.value
    ensures ov.speedDeltaKmh.None? ==> lv.speedDelta == 0.0
    ensures ov.ltoReduction.None? ==> lv.ltoReduction == 0.0
  {
    Levers(ov.fleetMix.GetOr(Pack(id).fleetMix.passengerCar), OrZero(ov.speedDeltaKmh), OrZero(ov.ltoReduction))
  }

  function RunEnv(id: PackId, obs: Observations, lv: Levers): EdgeEnv {
    EdgeEnv(Conditions(obs.speeds, lv.speedDelta, obs.weather, obs.cosDeg), lv.fleetMix, Pack(id).fuelCo2Factors)
  }

  /** Grams measured on `sampledCount` edges, scaled up to the `allCount` edges
      of the zone (ratio all/sampled) and converted to tonnes. */
  function ScaleToNetwork(grams: real, sampledCount: nat, allCount: nat): (tonnes: real)
    requires sampledCount > 0
    ensures tonnes * sampledCount as real * 1000000.0 == grams * allCount as real
    ensures grams >= 0.0 ==> tonnes >= 0.0
    ensures grams == 0.0 ==> tonnes == 0.0
  {
    var scalingFactor := allCount as real / sampledCount as real;
    (grams * scalingFactor) / 1000000.0
  }

  /** Tonnes of CO₂ from `ltoCount` landing/takeoff cycles of the generic jet. */
  function AviationTonnes(ltoCount: real): (tonnes: real)
    ensures tonnes == ltoCount * 3.15
  {
    (ltoCount * GenericJet.co2KgPerLto) / 1000.0
  }

  /** Tonnes of CO₂ from `ltoCount` cycles after removing the fraction
      `ltoReduction` of them. */
  function FlightTonnes(ltoCount: nat, ltoReduction: real): (tonnes: real)
    ensures tonnes == ltoCount as real * (1.0 - ltoReduction) * 3.15
  {
    AviationTonnes(ltoCount as real * (1.0 - ltoReduction))
  }

  /** The three modules of one run, in tonnes: both road totals of the sample
      scaled to the whole network, and the aviation term after the flight
      reduction. */
  function RunModules(id: PackId, obs: Observations, lv: Levers): (m: ByModule)
    requires Usable(obs)
    ensures m.aviation == FlightTonnes(obs.ltoCount, lv.ltoReduction)
    ensures lv.fleetMix.ev == 0.0 ==> m.roadsEv == 0.0
    ensures lv.fleetMix.petrol == 0.0 && lv.fleetMix.diesel == 0.0 ==> m.roadsFleet == 0.0
    ensures var sample := SumEdges(obs.sampledEdges, RunEnv(id, obs, lv));
            && m.roadsFleet == ScaleToNetwork(sample.fleetGrams, |obs.sampledEdges|, obs.allEdgesCount)
            && m.roadsEv == ScaleToNetwork(sample.evGrams, |obs.sampledEdges|, obs.allEdgesCount)
  {
    var sample := SumEdges(obs.sampledEdges, RunEnv(id, obs, lv));
    var roadsFleetTonnes := ScaleToNetwork(sample.fleetGrams, |obs.sampledEdges|, obs.allEdgesCount);
    var roadsEvTonnes := ScaleToNetwork(sample.evGrams, |obs.sampledEdges|, obs.allEdgesCount);
    ByModule(roadsFleetTonnes, roadsEvTonnes, FlightTonnes(obs.ltoCount, lv.ltoReduction))
  }

  /** Assembles the result of a run for pack `id` under levers `lv`. */
  function RunResult(input: ZoneInput, obs: Observations, id: PackId, lv: Levers): (r: EmissionsResult)
    requires Usable(obs)
    ensures Consistent(r)
    ensures r.factorsPackId == id
    ensures r.byModule == RunModules(id, obs, lv)
    ensures r.qualityInfo.flag == (if IsCountryPack(id) then Q1 else Q2)
    ensures r.metadata.fleetShares == lv.fleetMix
  {
    LiveRunQuality(id);
    var factors := Pack(id);
    var qualityInfo := ComputeQualityInfo(true, true, factors);
    var gridIntensity := factors.fuelCo2Factors.gridPerKwh;
    var modules := RunModules(id, obs, lv);
    var band := UncertaintyBand(modules);
    EmissionsResult(
      ModuleTotal(modules), band.low, band.high, qualityInfo, id, modules,
      RunMetadata(|obs.sampledEdges|, input.timeWindowMinutes, obs.weather.temp, gridIntensity, lv.fleetMix))
  }

  /** One emissions run over the given observations. */
  function ComputeZoneEmissions(input: ZoneInput, obs: Observations, ov: Overrides): (r: EmissionsResult)
    requires Usable(obs)
    ensures Consistent(r)
    ensures r.factorsPackId == ResolveFactorsPackId(input.countryIso2)
    ensures r.byModule == RunModules(r.factorsPackId, obs, EffectiveLevers(r.factorsPackId, ov))
    ensures r.qualityInfo.flag == (if IsCountryPack(r.factorsPackId) then Q1 else Q2)
    ensures r.metadata.fleetShares == EffectiveLevers(r.factorsPackId, ov).fleetMix
  {
    ResolveCaseInsensitive(input.countryIso2, ToUpper(input.countryIso2));
    var factorsPackId := ResolveFactorsPackId(ToUpper(input.countryIso2));
    RunResult(input, obs, factorsPackId, EffectiveLevers(factorsPackId, ov))
  }

  /** With non-negative edge lengths and a non-negative mix, and a flight
      reduction of at most 1, every module is non-negative. */
  lemma RunModulesNonNegative(id: PackId, obs: Observations, lv: Levers)
    requires Usable(obs)
    requires LengthsNonNegative(obs.sampledEdges)
    requires MixNonNegative(lv.fleetMix)
    requires lv.ltoReduction <= 1.0
    ensures var m := RunModules(id, obs, lv);
            m.roadsFleet >= 0.0 && m.roadsEv >= 0.0 && m.aviation >= 0.0
  {
    var env := RunEnv(id, obs, lv);
    assert EnvNonNegative(env);
    var sample := SumEdges(obs.sampledEdges, env);
    assert sample.fleetGrams >= 0.0 && sample.evGrams >= 0.0;
    var m := RunModules(id, obs, lv);
    assert m.roadsFleet >= 0.0 && m.roadsEv >= 0.0;
    assert m.aviation >= 0.0 by {
      MulNonNegative(obs.ltoCount as real, 1.0 - lv.ltoReduction);
    }
  }

  /** A baseline run over non-negative edge lengths has non-negative modules
      and a band around its total: every shipped pack has non-negative shares. */
  lemma BaselineNonNegative(input: ZoneInput, obs: Observations)
    requires Usable(obs)
    requires LengthsNonNegative(obs.sampledEdges)
    ensures var r := ComputeZoneEmissions(input, obs, NoOverrides);
            && r.byModule.roadsFleet >= 0.0 && r.byModule.roadsEv >= 0.0 && r.byModule.aviation >= 0.0
            && r.lowEstimateTonnes <= r.co2eTonnes <= r.highEstimateTonnes
  {
    var r := ComputeZoneEmissions(input, obs, NoOverrides);
    var id := r.factorsPackId;
    RunModulesNonNegative(id, obs, EffectiveLevers(id, NoOverrides));
    BandBracketsTotal(r.byModule);
  }

  /** The CNG share of the mix changes no module of a run. */
  lemma RunIgnoresCngShare(id: PackId, obs: Observations, lv: Levers, cng: real)
    requires Usable(obs)
    ensures RunModules(id, obs, lv) == RunModules(id, obs, lv.(fleetMix := lv.fleetMix.(cng := cng)))
  {
    var env := RunEnv(id, obs, lv);
    assert RunEnv(id, obs, lv.(fleetMix := lv.fleetMix.(cng := cng))) == env.(mix := env.mix.(cng := cng));
    SumEdgesIgnoresCng(obs.sampledEdges, env, cng);
  }

  /** A mix without petrol, diesel or EVs leaves only aviation, and the band is
      then exactly ±25% of it. */
  lemma RunAviationOnly(input: ZoneInput, obs: Observations, ov: Overrides)
    requires Usable(obs)
    requires ov.fleetMix.Some? && ov.fleetMix.value.petrol == 0.0 && ov.fleetMix.value.diesel == 0.0
    requires ov.fleetMix.value.ev == 0.0
    ensures var r := ComputeZoneEmissions(input, obs, ov);
            && r.byModule.roadsFleet == 0.0 && r.byModule.roadsEv == 0.0
            && r.co2eTonnes == r.byModule.aviation
            && r.lowEstimateTonnes == 0.75 * r.byModule.aviation
            && r.highEstimateTonnes == 1.25 * r.byModule.aviation
  {
    var r := ComputeZoneEmissions(input, obs, ov);
    AviationOnlyBand(r.byModule.aviation);
  }
}

=== FILE: experiment.dfy ===
/** Experiments (runZoneExperiment in services/orchestrator.ts): one baseline
    and a run per scenario preset, every run compared with that baseline. */
module Experiment {
  import opened Wrappers
  import opened Types
  import opened Emissions
  import opened Scenario

  /** The runs of `presets`, in order, each against the supplied `baseline`. */
  function RunPresets(input: ZoneInput, obs: Observations, presets: seq<ScenarioPreset>,
                      baseline: EmissionsResult): (runs: seq<ScenarioRun>)
    requires Usable(obs)
    ensures |runs| == |presets|
    ensures forall i :: 0 <= i < |presets| ==>
              runs[i] == ScenarioRun(presets[i].id, presets[i].title, RunZoneScenario(input, obs, presets[i].input, Some(baseline)))
  {
    if |presets| == 0 then []
    else
      var preset := presets[0];
      [ScenarioRun(preset.id, preset.title, RunZoneScenario(input, obs, preset.input, Some(baseline)))]
        + RunPresets(input, obs, presets[1..], baseline)
  }

  /** Against the computed baseline, every run is the one a stand-alone
      scenario would give. */
  lemma RunPresetsStandalone(input: ZoneInput, obs: Observations, presets: seq<ScenarioPreset>)
    requires Usable(obs)
    ensures var runs := RunPresets(input, obs, presets, ComputeZoneEmissions(input, obs, NoOverrides));
            forall i :: 0 <= i < |presets| ==> runs[i].result == RunZoneScenario(input, obs, presets[i].input, None)
  {
    var baseline := ComputeZoneEmissions(input, obs, NoOverrides);
    forall i | 0 <= i < |presets|
      ensures RunPresets(input, obs, presets, baseline)[i].result == RunZoneScenario(input, obs, presets[i].input, None)
    {
      PrecomputedBaselineAgrees(input, obs, presets[i].input, baseline);
    }
  }

  /** The baseline entry of an experiment: the baseline compared with itself. */
  function BaselineEntry(baseline: EmissionsResult): (r: ScenarioResult)
    ensures r.baseline == baseline && r.scenario == baseline
    ensures r.deltas == ComputeDeltas(baseline, baseline)
  {
    ScenarioResult(baseline, baseline, ZeroDeltas)
  }

  /** Computes the baseline once and runs every preset against it. */
  function RunZoneExperiment(input: ZoneInput, obs: Observations, presets: seq<ScenarioPreset>): (e: ExperimentResult)
    requires Usable(obs)
    ensures e.baseline.baseline == ComputeZoneEmissions(input, obs, NoOverrides)
    ensures e.baseline.scenario == e.baseline.baseline && e.baseline.deltas == ZeroDeltas
    ensures |e.scenarios| == |presets|
    ensures forall i :: 0 <= i < |presets| ==>
              e.scenarios[i].id == presets[i].id && e.scenarios[i].title == presets[i].title
              && e.scenarios[i].result.baseline == e.baseline.baseline
              && e.scenarios[i].result == RunZoneScenario(input, obs, presets[i].input, None)
  {
    var baseline := ComputeZoneEmissions(input, obs, NoOverrides);
    RunPresetsStandalone(input, obs, presets);
    ExperimentResult(BaselineEntry(baseline), RunPresets(input, obs, presets, baseline))
  }

  /** In an experiment, a preset with every lever at 0 shows no change at all. */
  lemma ExperimentZeroPresetNoChange(input: ZoneInput, obs: Observations, presets: seq<ScenarioPreset>, i: nat)
    requires Usable(obs)
    requires i < |presets| && presets[i].input == ScenarioInput(0.0, 0.0, 0.0)
    ensures var run := RunZoneExperiment(input, obs, presets).scenarios[i].result;
            run.scenario == run.baseline && run.deltas == ZeroDeltas
  {
    ZeroLeversZeroDeltas(input, obs);
  }

  /** The four presets offered with the application, as inputs. */
  const EvPush := ScenarioPreset("EV_PUSH", "+30% EV Share",
    "Increases the share of Electric Vehicles in the passenger car fleet by 30 percentage points, displacing petrol and diesel proportionally.",
    ScenarioInput(0.30, 0.0, 0.0))
  const City30 := ScenarioPreset("CITY_30", "Urban Speed Reduction",
    "Reduces average urban road speeds by 20 km/h to simulate aggressive traffic calming or a 30 km/h city-wide speed limit.",
    ScenarioInput(0.0, -20.0, 0.0))
  const FlightShift := ScenarioPreset("FLIGHT_SHIFT", "Cut Short-Haul Flights (50%)",
    "Reduces the number of short-haul Landing/Takeoff (LTO) cycles within the zone by 50%, simulating a modal shift to rail.",
    ScenarioInput(0.0, 0.0, 0.50))
  const ComboDecarb := ScenarioPreset("COMBO_DECARB", "Combined Decarbonization",
    "A combination of the EV push, urban speed reduction, and flight shift policies.",
    ScenarioInput(0.30, -20.0, 0.50))

  /** The flight-shift preset leaves the roads alone and halves aviation. */
  lemma FlightShiftPresetEffect(input: ZoneInput, obs: Observations)
    requires Usable(obs)
    ensures var d := RunZoneScenario(input, obs, FlightShift.input, None).deltas;
            d.roadsTonnes == 0.0 && d.aviationTonnes == -(obs.ltoCount as real * 1.575)
  {
    ScenarioRoadsUnmoved(input, obs, FlightShift.input);
    ScenarioAviationDelta(input, obs, FlightShift.input);
  }

  /** The EV push and the urban speed cut leave aviation as it is; the
      combined preset halves it, like the flight shift. */
  lemma PresetAviationDeltas(input: ZoneInput, obs: Observations)
    requires Usable(obs)
    ensures RunZoneScenario(input, obs, EvPush.input, None).deltas.aviationTonnes == 0.0
    ensures RunZoneScenario(input, obs, City30.input, None).deltas.aviationTonnes == 0.0
    ensures RunZoneScenario(input, obs, ComboDecarb.input, None).deltas.aviationTonnes
            == -(obs.ltoCount as real * 1.575)
  {
    ScenarioAviationDelta(input, obs, EvPush.input);
    ScenarioAviationDelta(input, obs, City30.input);
    ScenarioAviationDelta(input, obs, ComboDecarb.input);
  }
}

=== FILE: mathops.dfy ===
/** `Math.max` and `Math.min` over the reals, and the clamp the source writes
    as `Math.max(lo, Math.min(x, hi))`. */
module MathOps {

  function Max(a: real, b: real): (m: real)
    ensures m >= a && m >= b
    ensures m == a || m == b
  {
    if a >= b then a else b
  }

  function Min(a: real, b: real): (m: real)
    ensures m <= a && m <= b
    ensures m == a || m == b
  {
    if a <= b then a else b
  }

  /** `Math.max(lo, Math.min(x, hi))`. */
  function Clamp(x: real, lo: real, hi: real): (c: real)
    requires lo <= hi
    ensures lo <= c <= hi
    ensures lo <= x <= hi ==> c == x
    ensures x < lo ==> c == lo
    ensures x > hi ==> c == hi
  {
    Max(lo, Min(x, hi))
  }

  lemma MulNonNegative(a: real, b: real)
    requires a >= 0.0 && b >= 0.0
    ensures a * b >= 0.0
  {
  }

  lemma ClampMonotone(x: real, y: real, lo: real, hi: real)
    requires lo <= hi
    requires x <= y
    ensures Clamp(x, lo, hi) <= Clamp(y, lo, hi)
  {
  }
}

=== FILE: packs.dfy ===
/** The static factor tables (factors/packs.ts): regional factors packs, the
    Euro 5 petrol passenger-car speed curve and the generic-jet LTO factor. */
module Packs {
  import opened Wrappers
  import opened Types
  import opened MathOps
  import opened PhysicsEngine

  /** Illustrative coefficients of a generic Euro 5 petrol passenger car:
      FC(v) = 0.0018·v² − 0.11·v + 105. */
  const Euro5: SpeedCurveCoeffs :=
    SpeedCurveCoeffs("PC_Petrol_Consumption", "Euro5", 0.0018, -0.11, 105.0, 0.0, 0.0, 0.0, 0.0)

  datatype LtoFactor = LtoFactor(aircraftClass: string, co2KgPerLto: real)

  /** A standard short-haul jet: 3150 kg CO₂ per landing/takeoff cycle. */
  const GenericJet: LtoFactor := LtoFactor("generic_jet", 3150.0)

  predicate MixNonNegative(m: FleetMix) {
    m.petrol >= 0.0 && m.diesel >= 0.0 && m.cng >= 0.0 && m.ev >= 0.0
  }

  function MixTotal(m: FleetMix): real {
    m.petrol + m.diesel + m.cng + m.ev
  }

  /** The properties every shipped pack has: non-negative shares that sum to
      exactly 1 in each vehicle class, and strictly positive CO₂ factors. */
  predicate WellFormedPack(p: FactorsPack) {
    && MixNonNegative(p.fleetMix.passengerCar) && MixTotal(p.fleetMix.passengerCar) == 1.0
    && MixNonNegative(p.fleetMix.lightCommercial) && MixTotal(p.fleetMix.lightCommercial) == 1.0
    && p.fleetMix.heavyDuty.diesel >= 0.0 && p.fleetMix.heavyDuty.cng >= 0.0
    && p.fleetMix.heavyDuty.ev.GetOr(0.0) >= 0.0
    && p.fleetMix.heavyDuty.diesel + p.fleetMix.heavyDuty.cng + p.fleetMix.heavyDuty.ev.GetOr(0.0) == 1.0
    && p.fuelCo2Factors.petrolPerLitre > 0.0 && p.fuelCo2Factors.dieselPerLitre > 0.0
    && p.fuelCo2Factors.cngPerKwh > 0.0 && p.fuelCo2Factors.gridPerKwh > 0.0
  }

  const NationalData: PackMeta := PackMeta("Illustrative National Data", 2023)

  /** The factors pack stored under key `id`. Its own `id` field is that key,
      which quality scoring relies on. */
  function Pack(id: PackId): (p: FactorsPack)
    ensures p.id == id
    ensures WellFormedPack(p)
  {
    match id
    case FI => FactorsPack(FI, "Finland (FI)",
        FleetMixes(FleetMix(0.35, 0.55, 0.0, 0.10), FleetMix(0.1, 0.88, 0.0, 0.02), HeavyDutyMix(0.99, 0.01, None)),
        FuelCo2Factors(2350.0, 2660.0, 185.0, 120.0), NationalData)
    case DE => FactorsPack(DE, "Germany (DE)",
        FleetMixes(FleetMix(0.45, 0.45, 0.02, 0.08), FleetMix(0.08, 0.90, 0.0, 0.02), HeavyDutyMix(0.98, 0.02, None)),
        FuelCo2Factors(2370.0, 2650.0, 190.0, 434.0), NationalData)
    case US => FactorsPack(US, "United States (US)",
        FleetMixes(FleetMix(0.62, 0.24, 0.02, 0.12), FleetMix(0.75, 0.2, 0.0, 0.05), HeavyDutyMix(0.97, 0.03, None)),
        FuelCo2Factors(2300.0, 2700.0, 180.0, 385.0), NationalData)
    case IN => FactorsPack(IN, "India (IN)",
        FleetMixes(FleetMix(0.65, 0.30, 0.03, 0.02), FleetMix(0.2, 0.75, 0.04, 0.01), HeavyDutyMix(0.96, 0.04, None)),
        FuelCo2Factors(2290.0, 2680.0, 200.0, 690.0), NationalData)
    case EU => FactorsPack(EU, "European Union (EU Average)",
        FleetMixes(FleetMix(0.38, 0.52, 0.01, 0.09), FleetMix(0.07, 0.91, 0.0, 0.02), HeavyDutyMix(0.98, 0.02, None)),
        FuelCo2Factors(2360.0, 2655.0, 195.0, 295.0), PackMeta("Illustrative Regional Average", 2023))
    case GLOBAL => FactorsPack(GLOBAL, "Global Average",
        FleetMixes(FleetMix(0.57, 0.33, 0.03, 0.07), FleetMix(0.4, 0.55, 0.01, 0.04), HeavyDutyMix(0.95, 0.05, None)),
        FuelCo2Factors(2350.0, 2680.0, 200.0, 475.0), PackMeta("Illustrative Global Average (IEA-style)", 2023))
  }

  /** The quadratic the Euro 5 coefficients spell out, in g/km. */
  function Euro5Quadratic(v: real): real {
    0.0018 * (v * v) - 0.11 * v + 105.0
  }

  /** The quadratic's minimum is about 103.32 g/km at v = 275/9 km/h. */
  lemma Euro5QuadraticAboveFloor(v: real)
    ensures Euro5Quadratic(v) >= 103.3
  {
    var d := v - 275.0 / 9.0;
    assert Euro5Quadratic(v) == 0.0018 * (d * d) + 105.0 - 0.0121 / 0.0072;
    assert d * d >= 0.0;
  }

  /** The Euro 5 curve is that quadratic, so the 5 g/km floor never binds. */
  lemma Euro5CurveAboveFloor(speedKmh: real)
    ensures Euro5.delta == 0.0 && Euro5.epsilon == 0.0 && Euro5.zeta == 0.0 && Euro5.eta == 0.0
    ensures BaseFuelConsumption(speedKmh, Euro5) == Euro5Quadratic(Max(speedKmh, 1.0))
    ensures forall v :: Euro5Quadratic(v) >= 103.3
  {
    forall v
      ensures Euro5Quadratic(v) >= 103.3
    {
      Euro5QuadraticAboveFloor(v);
    }
    assert SpeedPolynomial(Max(speedKmh, 1.0), Euro5) == Euro5Quadratic(Max(speedKmh, 1.0));
  }
}

=== FILE: physics.dfy ===
/** The physics kernel (services/physicsEngine.ts): pure per-edge multipliers
    and consumption curves. */
module PhysicsEngine {
  import opened Constants
  import opened Types
  import opened MathOps

  /** The seven-term speed polynomial, for a speed already floored at 1 km/h. */
  function SpeedPolynomial(v: real, c: SpeedCurveCoeffs): real
    requires v >= 1.0
  {
    c.alpha * (v * v) + c.beta * v + c.gamma + c.delta / v
    + c.epsilon / (v * v) + c.zeta / v + c.eta
  }

  /** Base fuel consumption in g/km: the polynomial at max(speed, 1), never below 5. */
  function BaseFuelConsumption(speedKmh: real, coeffs: SpeedCurveCoeffs): (fc: real)
    ensures fc >= 5.0
    ensures fc == 5.0 || fc == SpeedPolynomial(Max(speedKmh, 1.0), coeffs)
    ensures fc >= SpeedPolynomial(Max(speedKmh, 1.0), coeffs)
    ensures SpeedPolynomial(Max(speedKmh, 1.0), coeffs) >= 5.0 ==> fc == SpeedPolynomial(Max(speedKmh, 1.0), coeffs)
    ensures speedKmh <= 1.0 ==> fc == Max(SpeedPolynomial(1.0, coeffs), 5.0)
  {
    var v := Max(speedKmh, 1.0);
    Max(SpeedPolynomial(v, coeffs), 5.0)
  }

  /** Every speed at or below 1 km/h is treated as 1 km/h. */
  lemma BaseFuelSpeedFloor(speedKmh: real, coeffs: SpeedCurveCoeffs)
    ensures BaseFuelConsumption(speedKmh, coeffs) == BaseFuelConsumption(Max(speedKmh, 1.0), coeffs)
  {
  }

  /** Air density in kg/m³ from the ideal gas law, with pressure in hPa and
      temperature in °C. At absolute zero the quotient is undefined. */
  function AirDensity(tempC: real, pressureHpa: real): (rho: real)
    requires tempC != -KelvinOffset
    ensures rho * (RSpecificDryAir * (tempC + KelvinOffset)) == pressureHpa * 100.0
    ensures pressureHpa > 0.0 && tempC > -KelvinOffset ==> rho > 0.0
  {
    var pressurePa := pressureHpa * 100.0;
    var tempKelvin := tempC + KelvinOffset;
    pressurePa / (RSpecificDryAir * tempKelvin)
  }

  /** The wind term of the air-speed formula as the source writes it, in km/h:
      the wind (blowing FROM `windBearingDeg`) is flipped to the direction it
      blows TO and projected on the vehicle heading. That is the component of
      the wind along the direction of travel, positive for a tailwind. `cosDeg`
      stands for the cosine of an angle given in degrees. */
  function WindAlongTravelKmh(windSpeedMs: real, vehicleBearingDeg: real, windBearingDeg: real, cosDeg: real -> real): real
  {
    windSpeedMs * cosDeg(vehicleBearingDeg - (windBearingDeg + 180.0)) * 3.6
  }

  /** The headwind in km/h, as the source's variable name intends it: the wind
      component against the direction of travel. */
  function HeadwindKmh(windSpeedMs: real, vehicleBearingDeg: real, windBearingDeg: real, cosDeg: real -> real): real
  {
    -WindAlongTravelKmh(windSpeedMs, vehicleBearingDeg, windBearingDeg, cosDeg)
  }

  /** A wind from straight ahead is a full headwind and a wind from straight
      behind a full tailwind, whatever the vehicle's heading. */
  lemma HeadwindSign(windSpeedMs: real, vehicleBearingDeg: real, cosDeg: real -> real)
    requires cosDeg(-180.0) == -1.0 && cosDeg(-360.0) == 1.0
    ensures HeadwindKmh(windSpeedMs, vehicleBearingDeg, vehicleBearingDeg, cosDeg) == windSpeedMs * 3.6
    ensures HeadwindKmh(windSpeedMs, vehicleBearingDeg, vehicleBearingDeg + 180.0, cosDeg) == -(windSpeedMs * 3.6)
  {
    assert vehicleBearingDeg - (vehicleBearingDeg + 180.0) == -180.0;
    assert vehicleBearingDeg - ((vehicleBearingDeg + 180.0) + 180.0) == -360.0;
  }

  /** Air speed seen by the vehicle, in km/h, floored at 1, as the source
      computes it: the vehicle speed plus the wind term above. A wind from
      straight behind therefore raises it. */
  function RelativeAirSpeed(speedKmh: real, windSpeedMs: real, vehicleBearingDeg: real,
                            windBearingDeg: real, cosDeg: real -> real): (vAir: real)
    ensures vAir >= 1.0
    ensures vAir >= speedKmh + WindAlongTravelKmh(windSpeedMs, vehicleBearingDeg, windBearingDeg, cosDeg)
    ensures vAir == 1.0 || vAir == speedKmh + WindAlongTravelKmh(windSpeedMs, vehicleBearingDeg, windBearingDeg, cosDeg)
    ensures windSpeedMs > 0.0 && windBearingDeg == vehicleBearingDeg + 180.0 && cosDeg(-360.0) == 1.0
            ==> vAir > speedKmh
  {
    assert windBearingDeg == vehicleBearingDeg + 180.0 ==> vehicleBearingDeg - (windBearingDeg + 180.0) == -360.0;
    Max(speedKmh + WindAlongTravelKmh(windSpeedMs, vehicleBearingDeg, windBearingDeg, cosDeg), 1.0)
  }

  /** With the wind straight from behind, the source's term is the full wind
      speed with a positive sign, and the source's air speed is the vehicle
      speed plus that: a tailwind is treated as a headwind. */
  lemma TailwindRaisesSourceAirSpeed(speedKmh: real, windSpeedMs: real, vehicleBearingDeg: real, cosDeg: real -> real)
    requires cosDeg(-360.0) == 1.0
    ensures WindAlongTravelKmh(windSpeedMs, vehicleBearingDeg, vehicleBearingDeg + 180.0, cosDeg) == windSpeedMs * 3.6
    ensures RelativeAirSpeed(speedKmh, windSpeedMs, vehicleBearingDeg, vehicleBearingDeg + 180.0, cosDeg)
            == Max(speedKmh + windSpeedMs * 3.6, 1.0)
  {
    assert vehicleBearingDeg - ((vehicleBearingDeg + 180.0) + 180.0) == -360.0;
  }

  /** The air speed the source evidently intends: the vehicle speed plus the
      headwind, floored at 1. A wind from straight ahead raises it and, above
      the floor, a wind from straight behind lowers it. Nothing else in the
      model uses it; the pipeline follows the source. */
  function RelativeAirSpeedIntended(speedKmh: real, windSpeedMs: real, vehicleBearingDeg: real,
                                    windBearingDeg: real, cosDeg: real -> real): (vAir: real)
    ensures vAir >= 1.0
    ensures vAir >= speedKmh + HeadwindKmh(windSpeedMs, vehicleBearingDeg, windBearingDeg, cosDeg)
    ensures vAir == 1.0 || vAir == speedKmh + HeadwindKmh(windSpeedMs, vehicleBearingDeg, windBearingDeg, cosDeg)
    ensures windSpeedMs > 0.0 && windBearingDeg == vehicleBearingDeg && cosDeg(-180.0) == -1.0
            ==> vAir > speedKmh
    ensures windSpeedMs > 0.0 && windBearingDeg == vehicleBearingDeg + 180.0 && cosDeg(-360.0) == 1.0
            && speedKmh > 1.0
            ==> vAir < speedKmh
  {
    assert windBearingDeg == vehicleBearingDeg ==> vehicleBearingDeg - (windBearingDeg + 180.0) == -180.0;
    assert windBearingDeg == vehicleBearingDeg + 180.0 ==> vehicleBearingDeg - (windBearingDeg + 180.0) == -360.0;
    Max(speedKmh + HeadwindKmh(windSpeedMs, vehicleBearingDeg, windBearingDeg, cosDeg), 1.0)
  }

  /** In still air the relative air speed is the vehicle speed, floored at 1. */
  lemma RelativeAirSpeedStillAir(speedKmh: real, vehicleBearingDeg: real, windBearingDeg: real, cosDeg: real -> real)
    ensures RelativeAirSpeed(speedKmh, 0.0, vehicleBearingDeg, windBearingDeg, cosDeg) == Max(speedKmh, 1.0)
  {
  }

  /** (a/v)³ · (ρ/c), multiplied back by v³ · c, is a³ · ρ. */
  lemma CubeRatioScaled(a: real, v: real, rho: real, c: real)
    requires v > 0.0 && c > 0.0
    ensures (a / v) * (a / v) * (a / v) * (rho / c) * (v * v * v * c) == a * a * a * rho
  {
    var q := a / v;
    assert q * v == a;
    assert (rho / c) * c == rho;
    calc {
      q * q * q * (rho / c) * (v * v * v * c);
      (q * v) * (q * v) * (q * v) * ((rho / c) * c);
      a * a * a * rho;
    }
  }

  /** Clamping x to [0.5, 2.0], read back through a positive scale k with
      lhs = x · k: inside the range the clamp times k is lhs, at the cap lhs is
      at least 2k, and at the floor at most k/2. */
  lemma ScaledClampInverse(x: real, k: real, lhs: real)
    requires k > 0.0 && lhs == x * k
    ensures 0.5 < Clamp(x, 0.5, 2.0) < 2.0 ==> Clamp(x, 0.5, 2.0) * k == lhs
    ensures Clamp(x, 0.5, 2.0) == 2.0 ==> lhs >= 2.0 * k
    ensures Clamp(x, 0.5, 2.0) == 0.5 ==> lhs <= 0.5 * k
  {
    if x >= 2.0 {
      assert (x - 2.0) * k >= 0.0;
    } else if x <= 0.5 {
      assert (0.5 - x) * k >= 0.0;
    }
  }

  /** f is the aerodynamic multiplier for air speed vAir, vehicle speed vV
      and density rho, read back without divisions: inside [0.5, 2.0]
      f · vV³ · 1.225 is vAir³ · rho; at the cap vAir³ · rho reaches
      2 · vV³ · 1.225, and at the floor it stays within 0.5 · vV³ · 1.225. */
  predicate AeroReadBack(f: real, vAir: real, vV: real, rho: real) {
    && (0.5 < f < 2.0 ==> f * (vV * vV * vV * RhoRefDensity) == vAir * vAir * vAir * rho)
    && (f == 2.0 ==> vAir * vAir * vAir * rho >= 2.0 * (vV * vV * vV * RhoRefDensity))
    && (f == 0.5 ==> vAir * vAir * vAir * rho <= 0.5 * (vV * vV * vV * RhoRefDensity))
  }

  /** The clamped multiplier for air speed vAir, vehicle speed vV (at least 1)
      and density rho. */
  function AeroClamped(vAir: real, vV: real, rho: real): (f: real)
    requires vV >= 1.0
    ensures 0.5 <= f <= 2.0
    ensures AeroReadBack(f, vAir, vV, rho)
  {
    var ratio := vAir / vV;
    MulNonNegative(vV, vV);
    assert vV * vV * vV * RhoRefDensity > 0.0;
    CubeRatioScaled(vAir, vV, rho, RhoRefDensity);
    ScaledClampInverse(ratio * ratio * ratio * (rho / RhoRefDensity),
                       vV * vV * vV * RhoRefDensity, vAir * vAir * vAir * rho);
    Clamp(ratio * ratio * ratio * (rho / RhoRefDensity), 0.5, 2.0)
  }

  /** Aerodynamic multiplier: (air speed / vehicle speed)³ scaled by the density
      ratio to the reference density, clamped to [0.5, 2.0]; the value is
      pinned by `AeroReadBack` with the vehicle speed floored at 1. */
  function AeroMultiplier(speedKmh: real, weather: Weather, vehicleBearingDeg: real, cosDeg: real -> real): (f: real)
    requires weather.temp != -KelvinOffset
    ensures 0.5 <= f <= 2.0
    ensures AeroReadBack(f, RelativeAirSpeed(speedKmh, weather.windSpeed, vehicleBearingDeg, weather.windDeg, cosDeg),
                         Max(speedKmh, 1.0), AirDensity(weather.temp, weather.pressure))
  {
    var vVehicle := Max(speedKmh, 1.0);
    var rho := AirDensity(weather.temp, weather.pressure);
    var vAir := RelativeAirSpeed(speedKmh, weather.windSpeed, vehicleBearingDeg, weather.windDeg, cosDeg);
    AeroClamped(vAir, vVehicle, rho)
  }

  /** In still air the aerodynamic multiplier reduces to the clamped density ratio,
      whatever the cosine. */
  lemma AeroMultiplierStillAir(speedKmh: real, weather: Weather, vehicleBearingDeg: real, cosDeg: real -> real)
    requires weather.temp != -KelvinOffset
    requires weather.windSpeed == 0.0
    ensures AeroMultiplier(speedKmh, weather, vehicleBearingDeg, cosDeg)
            == Clamp(AirDensity(weather.temp, weather.pressure) / RhoRefDensity, 0.5, 2.0)
  {
    var vVehicle := Max(speedKmh, 1.0);
    RelativeAirSpeedStillAir(speedKmh, vehicleBearingDeg, weather.windDeg, cosDeg);
    assert RelativeAirSpeed(speedKmh, weather.windSpeed, vehicleBearingDeg, weather.windDeg, cosDeg) / vVehicle == 1.0;
  }

  /** The fixed weather of the offline adapter (18 °C, 1013 hPa, 5 m/s from
      the west) on an edge heading east at 50 km/h: the source's air speed is
      68 km/h and its aerodynamic multiplier hits the 2.0 cap, where the
      intended air speed would be 32 km/h. */
  lemma OfflineWeatherEastboundEdge(cosDeg: real -> real)
    requires cosDeg(-360.0) == 1.0
    ensures RelativeAirSpeed(50.0, 5.0, 90.0, 270.0, cosDeg) == 68.0
    ensures AeroMultiplier(50.0, Weather(18.0, 1013.0, 5.0, 270.0), 90.0, cosDeg) == 2.0
    ensures RelativeAirSpeedIntended(50.0, 5.0, 90.0, 270.0, cosDeg) == 32.0
  {
    assert 90.0 - (270.0 + 180.0) == -360.0;
    var rho := AirDensity(18.0, 1013.0);
    assert rho * (RSpecificDryAir * (18.0 + KelvinOffset)) == 101300.0;
    assert rho > 1.0;
    var ratio := 68.0 / 50.0;
    assert ratio * ratio * ratio * (rho / RhoRefDensity) > 2.0;
  }

  /** HVAC power in kW: 0.5 base load plus 0.03 per degree above 20 °C. */
  function HvacPower(tempC: real): (p: real)
    ensures p >= 0.5
    ensures tempC <= 20.0 ==> p == 0.5
    ensures tempC > 20.0 ==> p > 0.5
  {
    0.5 + 0.03 * Max(0.0, tempC - 20.0)
  }

  lemma HvacPowerMonotone(t1: real, t2: real)
    requires t1 <= t2
    ensures HvacPower(t1) <= HvacPower(t2)
  {
  }

  /** Above 20 °C the HVAC power grows by 0.03 kW per degree. */
  lemma HvacPowerSlope(t1: real, t2: real)
    requires 20.0 <= t1 && 20.0 <= t2
    ensures HvacPower(t2) - HvacPower(t1) == 0.03 * (t2 - t1)
  {
  }

  /** Combustion HVAC multiplier: 1 plus the g/km penalty (200 g/kWh of HVAC
      power over a speed floored at 10 km/h) relative to an assumed 80 g/km. */
  function HvacMultiplierIce(speedKmh: real, tempC: real): (m: real)
    ensures m > 1.0
    ensures (m - 1.0) * 80.0 * Max(speedKmh, 10.0) == 200.0 * HvacPower(tempC)
    ensures speedKmh <= 10.0 ==> m == 1.0 + HvacPower(tempC) / 4.0
  {
    var pHvacKw := HvacPower(tempC);
    var baseEfAtSpeed := 80.0;
    var hvacEfPenalty := (pHvacKw * 200.0) / Max(speedKmh, 10.0);
    assert hvacEfPenalty * Max(speedKmh, 10.0) == pHvacKw * 200.0;
    1.0 + hvacEfPenalty / baseEfAtSpeed
  }

  /** Below 10 km/h the combustion HVAC multiplier is that of 10 km/h. */
  lemma HvacMultiplierIceSpeedFloor(speedKmh: real, tempC: real)
    requires speedKmh <= 10.0
    ensures HvacMultiplierIce(speedKmh, tempC) == HvacMultiplierIce(10.0, tempC)
  {
  }

  /** EV HVAC energy in kWh/km: HVAC power over speed floored at 1 km/h. */
  function HvacEnergyEv(speedKmh: real, tempC: real): (e: real)
    ensures e > 0.0
    ensures e * Max(speedKmh, 1.0) == HvacPower(tempC)
    ensures speedKmh <= 1.0 ==> e == HvacPower(tempC)
  {
    HvacPower(tempC) / Max(speedKmh, 1.0)
  }

  /** Grade multiplier: 1 + k·grade with k = 0.030 clamped to [0.70, 1.30] for
      EVs and k = 0.035 clamped to [0.65, 1.35] for combustion vehicles. */
  function GradeMultiplier(gradePercent: real, isEv: bool): (m: real)
    ensures isEv ==> 0.70 <= m <= 1.30
    ensures !isEv ==> 0.65 <= m <= 1.35
    ensures gradePercent == 0.0 ==> m == 1.0
  {
    if isEv then Clamp(1.0 + 0.030 * gradePercent, 0.70, 1.30)
    else Clamp(1.0 + 0.035 * gradePercent, 0.65, 1.35)
  }

  /** A steeper grade never lowers the multiplier. */
  lemma GradeMultiplierMonotone(g1: real, g2: real, isEv: bool)
    requires g1 <= g2
    ensures GradeMultiplier(g1, isEv) <= GradeMultiplier(g2, isEv)
  {
    if isEv {
      ClampMonotone(1.0 + 0.030 * g1, 1.0 + 0.030 * g2, 0.70, 1.30);
    } else {
      ClampMonotone(1.0 + 0.035 * g1, 1.0 + 0.035 * g2, 0.65, 1.35);
    }
  }

  /** Between -10% and +10% grade neither clamp binds. */
  lemma GradeMultiplierLinearRange(gradePercent: real)
    requires -10.0 <= gradePercent <= 10.0
    ensures GradeMultiplier(gradePercent, false) == 1.0 + 0.035 * gradePercent
    ensures GradeMultiplier(gradePercent, true) == 1.0 + 0.030 * gradePercent
  {
  }
}

=== FILE: quality.dfy ===
/** Data-quality scoring (computeQualityInfo in services/orchestrator.ts). */
module Quality {
  import opened Types
  import opened Packs

  /** A pack for one country, as opposed to the EU or GLOBAL aggregates. */
  predicate IsCountryPack(id: PackId) {
    id != GLOBAL && id != EU
  }

  /** Points for pack specificity: 2 for a country, 1 for EU, 0 for GLOBAL. */
  function PackScore(id: PackId): nat {
    if IsCountryPack(id) then 2 else if id == EU then 1 else 0
  }

  function Score(hasLiveTraffic: bool, hasLiveWeather: bool, id: PackId): nat {
    (if hasLiveTraffic then 2 else 0) + (if hasLiveWeather then 2 else 0) + PackScore(id)
  }

  function TrafficNote(hasLiveTraffic: bool): string {
    if hasLiveTraffic then "Using live traffic speed data." else "Using default/statistical speed data."
  }

  function WeatherNote(hasLiveWeather: bool): string {
    if hasLiveWeather then "Using live weather data for physics corrections." else "Using default weather conditions."
  }

  function PackNote(pack: FactorsPack): string {
    if IsCountryPack(pack.id) then "Using country-specific factors pack (" + pack.title + ")."
    else if pack.id == EU then "Using regional (EU) factors pack."
    else "Using global fallback factors pack."
  }

  /** The uncertainty multipliers that go with each produced flag. */
  function Multipliers(flag: QualityFlag): Uncertainty {
    match flag
    case Q1 => Uncertainty(0.8, 1.2)
    case Q2 => Uncertainty(0.75, 1.35)
    case _ => Uncertainty(0.6, 1.7)
  }

  /** Scores the provenance of a run's inputs: 6 or more points gives Q1, 3 or
      more gives Q2, anything else Q3. Qx is never produced. */
  function ComputeQualityInfo(hasLiveTraffic: bool, hasLiveWeather: bool, pack: FactorsPack): (q: QualityInfo)
    ensures q.flag != Qx
    ensures q.flag == Q1 <==> hasLiveTraffic && hasLiveWeather && IsCountryPack(pack.id)
    ensures q.flag == Q3 <==> (!hasLiveTraffic && !hasLiveWeather)
                              || (hasLiveTraffic != hasLiveWeather && pack.id == GLOBAL)
    ensures q.flag == Q1 ==> q.uncertainty == Uncertainty(0.8, 1.2)
    ensures q.flag == Q2 ==> q.uncertainty == Uncertainty(0.75, 1.35)
    ensures q.flag == Q3 ==> q.uncertainty == Uncertainty(0.6, 1.7)
    ensures q.uncertainty.lowMultiplier < 1.0 < q.uncertainty.highMultiplier
    ensures |q.notes| == 3
    ensures q.notes == [TrafficNote(hasLiveTraffic), WeatherNote(hasLiveWeather), PackNote(pack)]
  {
    var notes := [TrafficNote(hasLiveTraffic), WeatherNote(hasLiveWeather), PackNote(pack)];
    var score := Score(hasLiveTraffic, hasLiveWeather, pack.id);
    var flag := if score >= 6 then Q1 else if score >= 3 then Q2 else Q3;
    QualityInfo(flag, Multipliers(flag), notes)
  }

  /** With both live feeds (as every pipeline run reports), the shipped packs
      give Q1 exactly for the country packs and Q2 for EU and GLOBAL. */
  lemma LiveRunQuality(id: PackId)
    ensures ComputeQualityInfo(true, true, Pack(id)).flag == (if IsCountryPack(id) then Q1 else Q2)
  {
    assert Pack(id).id == id;
  }
}

=== FILE: registry.dfy ===
/** Region resolution (factors/registry.ts): ISO2 country code to factors-pack id,
    falling back from an exact pack key to the EU pack to the GLOBAL pack. */
module Registry {
  import opened Wrappers
  import opened Types

  /** The EU member states used for the fallback; FI and DE also have their own packs. */
  const EuCountries: set<string> := {
    "AT", "BE", "BG", "HR", "CY", "CZ", "DK", "EE", "FI", "FR", "DE", "GR", "HU", "IE",
    "IT", "LV", "LT", "LU", "MT", "NL", "PL", "PT", "RO", "SK", "SI", "ES", "SE"
  }

  /** Upper-casing of one character; only the ASCII letters a–z change. */
  function UpperChar(c: char): (u: char)
    ensures 'a' <= c <= 'z' ==> 'A' <= u <= 'Z' && u as int == c as int - 32
    ensures !('a' <= c <= 'z') ==> u == c
  {
    if 'a' <= c <= 'z' then (c as int - 32) as char else c
  }

  /** `String.prototype.toUpperCase` restricted to ASCII. */
  function ToUpper(s: string): (u: string)
    ensures |u| == |s|
    ensures forall i :: 0 <= i < |s| ==> u[i] == UpperChar(s[i])
  {
    seq(|s|, i requires 0 <= i < |s| => UpperChar(s[i]))
  }

  lemma ToUpperIdempotent(s: string)
    ensures ToUpper(ToUpper(s)) == ToUpper(s)
  {
  }

  /** The record key under which a pack is stored. */
  function PackKey(id: PackId): string {
    match id
    case FI => "FI"
    case DE => "DE"
    case US => "US"
    case IN => "IN"
    case EU => "EU"
    case GLOBAL => "GLOBAL"
  }

  /** The lookup `FACTORS_PACKS[key]`: a pack id when `key` is one of the six
      record keys, nothing otherwise. (Every property inherited from a JavaScript
      object prototype has a lower-case letter in its name, so an upper-cased key
      never reaches one.) */
  function LookupPackKey(key: string): (r: Option<PackId>)
    ensures r.Some? ==> PackKey(r.value) == key
    ensures forall id :: PackKey(id) == key ==> r == Some(id)
  {
    if key == "FI" then Some(FI)
    else if key == "DE" then Some(DE)
    else if key == "US" then Some(US)
    else if key == "IN" then Some(IN)
    else if key == "EU" then Some(EU)
    else if key == "GLOBAL" then Some(GLOBAL)
    else None
  }

  /** The factors pack for a country code. Never fails. */
  function ResolveFactorsPackId(countryIso2: string): (id: PackId)
    ensures LookupPackKey(PackKey(id)) == Some(id)
    ensures id == EU <==> (ToUpper(countryIso2) == "EU"
                           || (ToUpper(countryIso2) in EuCountries && LookupPackKey(ToUpper(countryIso2)).None?))
    ensures id == GLOBAL <==> (ToUpper(countryIso2) == "GLOBAL"
                               || (ToUpper(countryIso2) !in EuCountries && LookupPackKey(ToUpper(countryIso2)).None?))
    ensures LookupPackKey(ToUpper(countryIso2)).Some? ==> id == LookupPackKey(ToUpper(countryIso2)).value
    ensures id != EU && id != GLOBAL ==> LookupPackKey(ToUpper(countryIso2)) == Some(id)
  {
    var upperIso := ToUpper(countryIso2);
    match LookupPackKey(upperIso)
    case Some(key) => key
    case None => if upperIso in EuCountries then EU else GLOBAL
  }

  /** Case-insensitivity: the result depends only on the upper-cased code. */
  lemma {:induction false} ResolveCaseInsensitive(a: string, b: string)
    requires ToUpper(a) == ToUpper(b)
    ensures ResolveFactorsPackId(a) == ResolveFactorsPackId(b)
    ensures ResolveFactorsPackId(a) == ResolveFactorsPackId(ToUpper(a))
  {
    ToUpperIdempotent(a);
  }

  /** A code that spells a pack key, in any case, resolves to that pack, even
      when it is also an EU member. */
  lemma ResolveExactKeyFirst(countryIso2: string, id: PackId)
    requires ToUpper(countryIso2) == PackKey(id)
    ensures ResolveFactorsPackId(countryIso2) == id
  {
  }

  /** Every result is itself a pack key, so resolving it again changes nothing. */
  lemma ResolveIdempotent(countryIso2: string)
    ensures ResolveFactorsPackId(PackKey(ResolveFactorsPackId(countryIso2))) == ResolveFactorsPackId(countryIso2)
  {
    var id := ResolveFactorsPackId(countryIso2);
    var key := PackKey(id);
    assert ToUpper(key) == key;
    ResolveExactKeyFirst(key, id);
  }

  /** Pack keys win over EU membership: "fi" and "de" are EU members with their own packs. */
  lemma ResolveExamplesOwnPack()
    ensures ResolveFactorsPackId("de") == DE && ResolveFactorsPackId("fi") == FI
  {
    assert ToUpper("de") == "DE";
    assert ToUpper("fi") == "FI";
  }

  /** EU members without a pack of their own resolve to the EU pack. */
  lemma ResolveExamplesEu()
    ensures ResolveFactorsPackId("se") == EU
    ensures ResolveFactorsPackId("fr") == EU
  {
    assert ToUpper("se") == "SE";
    assert ToUpper("fr") == "FR";
  }

  /** Everything else resolves to GLOBAL. */
  lemma ResolveExamplesGlobal()
    ensures ResolveFactorsPackId("zz") == GLOBAL
    ensures ResolveFactorsPackId("gb") == GLOBAL
  {
    assert ToUpper("zz") == "ZZ";
    assert ToUpper("gb") == "GB";
    assert "ZZ" !in EuCountries;
    assert "GB" !in EuCountries;
  }
}

=== FILE: scenario.dfy ===
/** Scenario runs (runZoneScenario in services/orchestrator.ts): the EV-share
    shift of the passenger-car mix, the scenario overrides, and the deltas
    against a baseline. */
module Scenario {
  import opened Wrappers
  import opened Types
  import opened MathOps
  import opened Packs
  import opened Emissions
  import opened Registry

  /** The petrol + diesel + CNG pool the EV change is taken from. */
  function NonEvPool(mix: FleetMix): real {
    mix.petrol + mix.diesel + mix.cng
  }

  /** The fraction of its share that petrol and diesel each keep when
      `evChange` is taken out of `pool`. */
  function KeepFraction(evChange: real, pool: real): real
    requires pool != 0.0
  {
    (pool - evChange) / pool
  }

  /** Moves the EV share by `evShareDelta` (clamped to [0, 1]) and takes the
      change out of petrol and diesel in proportion to their part of the
      petrol + diesel + CNG pool, each floored at 0. CNG itself is left alone,
      and a pool that is not positive leaves petrol and diesel alone too. */
  function ShiftFleetMix(mix: FleetMix, evShareDelta: real): (m: FleetMix)
    ensures m.ev == Clamp(mix.ev + evShareDelta, 0.0, 1.0)
    ensures m.cng == mix.cng
    ensures NonEvPool(mix) <= 0.0 ==> m.petrol == mix.petrol && m.diesel == mix.diesel
    ensures NonEvPool(mix) > 0.0 ==>
              && m.petrol == Max(0.0, mix.petrol * KeepFraction(m.ev - mix.ev, NonEvPool(mix)))
              && m.diesel == Max(0.0, mix.diesel * KeepFraction(m.ev - mix.ev, NonEvPool(mix)))
    ensures NonEvPool(mix) > 0.0 ==> m.petrol >= 0.0 && m.diesel >= 0.0
    ensures MixNonNegative(mix) ==> MixNonNegative(m)
  {
    var currentEv := mix.ev;
    var newEv := Clamp(currentEv + evShareDelta, 0.0, 1.0);
    var evChange := newEv - currentEv;
    var nonEvPool := NonEvPool(mix);
    if nonEvPool > 0.0 then
      ProportionalTakeScales(mix.petrol, evChange, nonEvPool);
      ProportionalTakeScales(mix.diesel, evChange, nonEvPool);
      mix.(petrol := Max(0.0, ProportionalTake(mix.petrol, evChange, nonEvPool)),
           diesel := Max(0.0, ProportionalTake(mix.diesel, evChange, nonEvPool)),
           ev := newEv)
    else
      mix.(ev := newEv)
  }

  /** A zero delta leaves a mix with shares in range unchanged. */
  lemma ShiftZeroDeltaIdentity(mix: FleetMix)
    requires 0.0 <= mix.ev <= 1.0 && mix.petrol >= 0.0 && mix.diesel >= 0.0
    ensures ShiftFleetMix(mix, 0.0) == mix
  {
  }

  /** {petrol 0.5, diesel 0.5, EV 0, CNG 0} shifted by +0.2 gives {0.4, 0.4, EV 0.2}. */
  lemma ShiftExample()
    ensures ShiftFleetMix(FleetMix(0.5, 0.5, 0.0, 0.0), 0.2) == FleetMix(0.4, 0.4, 0.0, 0.2)
  {
  }

  /** What is left of share `x` after `evChange` is taken out of `pool` in
      proportion to the part `x` has of it. */
  function ProportionalTake(x: real, evChange: real, pool: real): real
    requires pool != 0.0
  {
    x - evChange * (x / pool)
  }

  /** Taking a change out in proportion scales the share by the kept fraction. */
  lemma ProportionalTakeScales(x: real, evChange: real, pool: real)
    requires pool != 0.0
    ensures ProportionalTake(x, evChange, pool) == x * KeepFraction(evChange, pool)
  {
    assert x * KeepFraction(evChange, pool) * pool == x * (pool - evChange);
    assert (x - evChange * (x / pool)) * pool == x * pool - evChange * x;
  }

  /** The shift keeps the ratio of petrol to diesel: both are scaled by one
      fraction, or both floored to 0. */
  lemma ShiftKeepsPetrolDieselRatio(mix: FleetMix, evShareDelta: real)
    requires mix.petrol >= 0.0 && mix.diesel >= 0.0
    ensures var m := ShiftFleetMix(mix, evShareDelta);
            m.petrol * mix.diesel == m.diesel * mix.petrol
  {
    var m := ShiftFleetMix(mix, evShareDelta);
    if NonEvPool(mix) > 0.0 {
      var k := KeepFraction(m.ev - mix.ev, NonEvPool(mix));
      if k >= 0.0 {
        MulNonNegative(mix.petrol, k);
        MulNonNegative(mix.diesel, k);
        assert m.petrol == mix.petrol * k && m.diesel == mix.diesel * k;
        assert mix.petrol * k * mix.diesel == mix.diesel * k * mix.petrol;
      } else {
        MulNonNegative(mix.petrol, -k);
        MulNonNegative(mix.diesel, -k);
        assert m.petrol == 0.0 && m.diesel == 0.0;
      }
    }
  }

  /** The plain algebra of the shift: a pool split into `pd` (petrol and
      diesel) and `cng`, of which only `pd` gives up `evChange` in proportion. */
  lemma KeepAlgebra(pd: real, cng: real, evChange: real, pool: real)
    requires pool > 0.0 && pd + cng == pool
    ensures pd * KeepFraction(evChange, pool) + cng == pool - evChange + evChange * (cng / pool)
  {
    var q := KeepFraction(evChange, pool);
    assert q * pool == pool - evChange;
    assert pd * q == pool * q - cng * q;
    assert (cng * q) * pool == (cng - evChange * (cng / pool)) * pool;
  }

  /** For a non-negative mix summing to 1 the EV change never exceeds the
      pool, so neither floor binds: petrol and diesel are both scaled by the
      kept fraction, which is non-negative. */
  lemma ShiftScalesWithoutFloor(mix: FleetMix, evShareDelta: real)
    requires MixNonNegative(mix) && MixTotal(mix) == 1.0 && NonEvPool(mix) > 0.0
    ensures var m := ShiftFleetMix(mix, evShareDelta);
            var k := KeepFraction(m.ev - mix.ev, NonEvPool(mix));
            && k >= 0.0
            && m.petrol == mix.petrol * k
            && m.diesel == mix.diesel * k
  {
    var m := ShiftFleetMix(mix, evShareDelta);
    var pool := NonEvPool(mix);
    var c := m.ev - mix.ev;
    assert c <= pool;
    assert KeepFraction(c, pool) >= 0.0;
    MulNonNegative(mix.petrol, KeepFraction(c, pool));
    MulNonNegative(mix.diesel, KeepFraction(c, pool));
  }

  /** For a non-negative mix summing to 1 with something to take from, the
      shift keeps every share non-negative, and the total ends at 1 plus the
      EV change times CNG's part of the pool: the CNG part of the change is
      counted in the pool but never taken. */
  lemma ShiftTotal(mix: FleetMix, evShareDelta: real)
    requires MixNonNegative(mix) && MixTotal(mix) == 1.0 && NonEvPool(mix) > 0.0
    ensures MixNonNegative(ShiftFleetMix(mix, evShareDelta))
    ensures MixTotal(ShiftFleetMix(mix, evShareDelta))
            == 1.0 + (ShiftFleetMix(mix, evShareDelta).ev - mix.ev) * (mix.cng / NonEvPool(mix))
  {
    var m := ShiftFleetMix(mix, evShareDelta);
    ShiftScalesWithoutFloor(mix, evShareDelta);
    ScaledMixTotal(mix, m);
  }

  /** A mix summing to 1 whose petrol and diesel are scaled by the kept
      fraction, with CNG untouched, totals 1 plus the EV change times CNG's
      part of the pool. */
  lemma ScaledMixTotal(mix: FleetMix, m: FleetMix)
    requires MixTotal(mix) == 1.0 && NonEvPool(mix) > 0.0 && m.cng == mix.cng
    requires m.petrol == mix.petrol * KeepFraction(m.ev - mix.ev, NonEvPool(mix))
    requires m.diesel == mix.diesel * KeepFraction(m.ev - mix.ev, NonEvPool(mix))
    ensures MixTotal(m) == 1.0 + (m.ev - mix.ev) * (mix.cng / NonEvPool(mix))
  {
    var c := m.ev - mix.ev;
    var k := KeepFraction(c, NonEvPool(mix));
    assert m.petrol + m.diesel == (mix.petrol + mix.diesel) * k;
    KeepAlgebra(mix.petrol + mix.diesel, mix.cng, c, NonEvPool(mix));
  }

  /** Without CNG the shift keeps a mix summing to 1 summing to 1, provided
      there is some petrol or diesel to take from: neither floor binds. */
  lemma ShiftKeepsTotalWithoutCng(mix: FleetMix, evShareDelta: real)
    requires MixNonNegative(mix) && MixTotal(mix) == 1.0
    requires mix.cng == 0.0 && mix.petrol + mix.diesel > 0.0
    ensures MixNonNegative(ShiftFleetMix(mix, evShareDelta))
    ensures MixTotal(ShiftFleetMix(mix, evShareDelta)) == 1.0
  {
    ShiftTotal(mix, evShareDelta);
  }

  /** With CNG in the pool the shift does not keep the total at 1: the
      German mix pushed by +0.3 ends above 1, because CNG is counted in the
      pool but never reduced. */
  lemma ShiftWithCngLeavesTotalAboveOne()
    ensures MixTotal(Pack(DE).fleetMix.passengerCar) == 1.0
    ensures MixTotal(ShiftFleetMix(Pack(DE).fleetMix.passengerCar, 0.3)) > 1.0
  {
    var mix := Pack(DE).fleetMix.passengerCar;
    assert mix == FleetMix(0.45, 0.45, 0.02, 0.08);
    assert ShiftFleetMix(mix, 0.3).ev == 0.38;
  }

  /** The overrides of a scenario run: the shifted passenger-car mix of pack
      `id`, the speed delta and the flight reduction. */
  function ScenarioOverrides(id: PackId, scenario: ScenarioInput): Overrides {
    Overrides(
      Some(ShiftFleetMix(Pack(id).fleetMix.passengerCar, scenario.evShareDelta)),
      Some(scenario.urbanSpeedDeltaKmh),
      Some(scenario.shortHaulFlightReduction))
  }

  const ZeroDeltas: Deltas := Deltas(0.0, 0.0, 0.0, 0.0)

  /** Scenario minus baseline, per total, roads and aviation; the percentage
      is relative to a positive baseline total and 0 otherwise. */
  function ComputeDeltas(baseline: EmissionsResult, scenario: EmissionsResult): (d: Deltas)
    ensures baseline.co2eTonnes + d.totalTonnes == scenario.co2eTonnes
    ensures baseline.byModule.aviation + d.aviationTonnes == scenario.byModule.aviation
    ensures baseline.byModule.roadsFleet + baseline.byModule.roadsEv + d.roadsTonnes
            == scenario.byModule.roadsFleet + scenario.byModule.roadsEv
    ensures baseline.co2eTonnes > 0.0 ==> d.totalPercent * baseline.co2eTonnes == d.totalTonnes
    ensures baseline.co2eTonnes <= 0.0 ==> d.totalPercent == 0.0
    ensures Consistent(baseline) && Consistent(scenario) ==> d.totalTonnes == d.roadsTonnes + d.aviationTonnes
    ensures baseline == scenario ==> d == ZeroDeltas
  {
    var totalTonnes := scenario.co2eTonnes - baseline.co2eTonnes;
    var totalPercent := if baseline.co2eTonnes > 0.0 then totalTonnes / baseline.co2eTonnes else 0.0;
    var scenarioRoads := scenario.byModule.roadsFleet + scenario.byModule.roadsEv;
    var baselineRoads := baseline.byModule.roadsFleet + baseline.byModule.roadsEv;
    Deltas(totalTonnes, totalPercent, scenarioRoads - baselineRoads,
           scenario.byModule.aviation - baseline.byModule.aviation)
  }

  /** Runs a scenario against `precomputed` or, when absent, a baseline computed
      from the same observations. The shifted mix starts from the baseline's
      pack. The scenario result is consistent; with a consistent baseline the
      total delta splits into roads and aviation; the scenario's fleet shares
      carry the clamped EV share and the pack's CNG share. */
  function RunZoneScenario(input: ZoneInput, obs: Observations, scenario: ScenarioInput,
                           precomputed: Option<EmissionsResult>): (r: ScenarioResult)
    requires Usable(obs)
    ensures precomputed.Some? ==> r.baseline == precomputed.value
    ensures precomputed.None? ==> r.baseline == ComputeZoneEmissions(input, obs, NoOverrides)
    ensures Consistent(r.scenario)
    ensures r.scenario.factorsPackId == ResolveFactorsPackId(input.countryIso2)
    ensures precomputed.None? || Consistent(precomputed.value) ==>
              r.deltas.totalTonnes == r.deltas.roadsTonnes + r.deltas.aviationTonnes
    ensures r.scenario.metadata.fleetShares.ev
            == Clamp(Pack(r.baseline.factorsPackId).fleetMix.passengerCar.ev + scenario.evShareDelta, 0.0, 1.0)
    ensures r.scenario.metadata.fleetShares.cng == Pack(r.baseline.factorsPackId).fleetMix.passengerCar.cng
  {
    var baseline := precomputed.GetOr(ComputeZoneEmissions(input, obs, NoOverrides));
    var overrides := ScenarioOverrides(baseline.factorsPackId, scenario);
    var scenarioResult := ComputeZoneEmissions(input, obs, overrides);
    var r := ScenarioResult(baseline, scenarioResult, ComputeDeltas(baseline, scenarioResult));
    ScenarioLevers(baseline.factorsPackId, scenario);
    r
  }

  /** Against the computed baseline, the aviation delta is exactly the
      flights removed: −lto · r · 3.15 t. */
  lemma ScenarioAviationDelta(input: ZoneInput, obs: Observations, scenario: ScenarioInput)
    requires Usable(obs)
    ensures RunZoneScenario(input, obs, scenario, None).deltas.aviationTonnes
            == -(obs.ltoCount as real * scenario.shortHaulFlightReduction * 3.15)
  {
    ScenarioResultAviationDelta(input, obs, scenario, RunZoneScenario(input, obs, scenario, None));
  }

  /** A supplied baseline that is the one the engine would compute changes
      nothing: the run is the same as without it. */
  lemma PrecomputedBaselineAgrees(input: ZoneInput, obs: Observations, scenario: ScenarioInput,
                                  baseline: EmissionsResult)
    requires Usable(obs)
    requires baseline == ComputeZoneEmissions(input, obs, NoOverrides)
    ensures RunZoneScenario(input, obs, scenario, Some(baseline)) == RunZoneScenario(input, obs, scenario, None)
  {
  }

  /** The levers a scenario applies, against those of the baseline run. */
  lemma ScenarioLevers(id: PackId, scenario: ScenarioInput)
    ensures EffectiveLevers(id, ScenarioOverrides(id, scenario))
            == Levers(ShiftFleetMix(Pack(id).fleetMix.passengerCar, scenario.evShareDelta),
                      scenario.urbanSpeedDeltaKmh, scenario.shortHaulFlightReduction)
    ensures EffectiveLevers(id, NoOverrides) == Levers(Pack(id).fleetMix.passengerCar, 0.0, 0.0)
  {
  }

  /** A scenario with every lever at 0 reproduces the baseline exactly, so all
      four deltas are 0: the scenario re-runs the same deterministic engine. */
  lemma ZeroLeversZeroDeltas(input: ZoneInput, obs: Observations)
    requires Usable(obs)
    ensures var r := RunZoneScenario(input, obs, ScenarioInput(0.0, 0.0, 0.0), None);
            r.scenario == r.baseline && r.deltas == ZeroDeltas
  {
    var baseline := ComputeZoneEmissions(input, obs, NoOverrides);
    var id := baseline.factorsPackId;
    var mix := Pack(id).fleetMix.passengerCar;
    ShiftZeroDeltaIdentity(mix);
    ScenarioLevers(id, ScenarioInput(0.0, 0.0, 0.0));
    assert EffectiveLevers(id, ScenarioOverrides(id, ScenarioInput(0.0, 0.0, 0.0))) == EffectiveLevers(id, NoOverrides);
  }

  /** Removing the fraction `reduction` of the LTO cycles removes that
      fraction of the unreduced tonnes. */
  lemma FlightTonnesReduction(ltoCount: nat, reduction: real)
    ensures FlightTonnes(ltoCount, reduction) - FlightTonnes(ltoCount, 0.0)
            == -(ltoCount as real * reduction * 3.15)
  {
    var lto := ltoCount as real;
    assert lto * (1.0 - reduction) - lto * (1.0 - 0.0) == -(lto * reduction);
  }

  /** The aviation module of any run is the flight term of its LTO count
      under the override's reduction, 0 when there is none. */
  lemma RunAviationModule(input: ZoneInput, obs: Observations, ov: Overrides)
    requires Usable(obs)
    ensures ComputeZoneEmissions(input, obs, ov).byModule.aviation == FlightTonnes(obs.ltoCount, OrZero(ov.ltoReduction))
  {
    var r := ComputeZoneEmissions(input, obs, ov);
    var lv := EffectiveLevers(r.factorsPackId, ov);
    assert lv.ltoReduction == OrZero(ov.ltoReduction);
    assert r.byModule == RunModules(r.factorsPackId, obs, lv);
  }

  /** A run whose overrides remove the fraction `reduction` of the flights
      emits that much less aviation CO₂ than the baseline run. */
  lemma OverrideAviationDelta(input: ZoneInput, obs: Observations, ov: Overrides, reduction: real)
    requires Usable(obs)
    requires ov.ltoReduction == Some(reduction)
    ensures ComputeZoneEmissions(input, obs, ov).byModule.aviation
            - ComputeZoneEmissions(input, obs, NoOverrides).byModule.aviation
            == -(obs.ltoCount as real * reduction * 3.15)
  {
    FlightTonnesReduction(obs.ltoCount, reduction);
    RunAviationPair(input, obs, ov, reduction);
  }

  /** The aviation modules of the run under `ov` and of the baseline run, as
      flight terms with the reduction and without it. */
  lemma RunAviationPair(input: ZoneInput, obs: Observations, ov: Overrides, reduction: real)
    requires Usable(obs)
    requires ov.ltoReduction == Some(reduction)
    ensures ComputeZoneEmissions(input, obs, ov).byModule.aviation == FlightTonnes(obs.ltoCount, reduction)
    ensures ComputeZoneEmissions(input, obs, NoOverrides).byModule.aviation == FlightTonnes(obs.ltoCount, 0.0)
  {
    RunAviationModule(input, obs, ov);
    RunAviationModule(input, obs, NoOverrides);
  }

  /** The aviation delta of a scenario result assembled from the computed
      baseline and the run under the scenario's overrides. */
  lemma ScenarioResultAviationDelta(input: ZoneInput, obs: Observations, scenario: ScenarioInput, r: ScenarioResult)
    requires Usable(obs)
    requires r.deltas == ComputeDeltas(r.baseline, r.scenario)
    requires r.baseline == ComputeZoneEmissions(input, obs, NoOverrides)
    requires r.scenario == ComputeZoneEmissions(input, obs, ScenarioOverrides(r.baseline.factorsPackId, scenario))
    ensures r.deltas.aviationTonnes == -(obs.ltoCount as real * scenario.shortHaulFlightReduction * 3.15)
  {
    OverrideAviationDelta(input, obs, ScenarioOverrides(r.baseline.factorsPackId, scenario), scenario.shortHaulFlightReduction);
  }

  /** A scenario result assembled from the computed baseline and a run whose
      levers move neither the EV share nor the urban speed has a roads delta of 0. */
  lemma ScenarioResultRoadsUnmoved(input: ZoneInput, obs: Observations, scenario: ScenarioInput, r: ScenarioResult)
    requires Usable(obs)
    requires scenario.evShareDelta == 0.0 && scenario.urbanSpeedDeltaKmh == 0.0
    requires r.deltas == ComputeDeltas(r.baseline, r.scenario)
    requires r.baseline == ComputeZoneEmissions(input, obs, NoOverrides)
    requires r.scenario == ComputeZoneEmissions(input, obs, ScenarioOverrides(r.baseline.factorsPackId, scenario))
    ensures r.deltas.roadsTonnes == 0.0
  {
    var id := r.baseline.factorsPackId;
    UnmovedScenarioEnv(id, obs, scenario);
    RoadModulesFollowEnv(id, obs, EffectiveLevers(id, ScenarioOverrides(id, scenario)), EffectiveLevers(id, NoOverrides));
    RoadsDeltaZero(r.baseline, r.scenario);
  }

  /** Without an EV shift or a speed delta, the scenario's edges see the
      baseline's environment. */
  lemma UnmovedScenarioEnv(id: PackId, obs: Observations, scenario: ScenarioInput)
    requires scenario.evShareDelta == 0.0 && scenario.urbanSpeedDeltaKmh == 0.0
    ensures RunEnv(id, obs, EffectiveLevers(id, ScenarioOverrides(id, scenario)))
            == RunEnv(id, obs, EffectiveLevers(id, NoOverrides))
  {
    ShiftZeroDeltaIdentity(Pack(id).fleetMix.passengerCar);
    ScenarioLevers(id, scenario);
  }

  /** Two runs with the same edge environment have the same road modules. */
  lemma RoadModulesFollowEnv(id: PackId, obs: Observations, lv: Levers, lv0: Levers)
    requires Usable(obs)
    requires RunEnv(id, obs, lv) == RunEnv(id, obs, lv0)
    ensures RunModules(id, obs, lv).roadsFleet == RunModules(id, obs, lv0).roadsFleet
    ensures RunModules(id, obs, lv).roadsEv == RunModules(id, obs, lv0).roadsEv
  {
  }

  /** Equal road modules give a roads delta of 0. */
  lemma RoadsDeltaZero(baseline: EmissionsResult, scenario: EmissionsResult)
    requires scenario.byModule.roadsFleet == baseline.byModule.roadsFleet
    requires scenario.byModule.roadsEv == baseline.byModule.roadsEv
    ensures ComputeDeltas(baseline, scenario).roadsTonnes == 0.0
  {
  }

  /** A scenario that moves neither the EV share nor the urban speed leaves
      the road modules where they were. */
  lemma ScenarioRoadsUnmoved(input: ZoneInput, obs: Observations, scenario: ScenarioInput)
    requires Usable(obs)
    requires scenario.evShareDelta == 0.0 && scenario.urbanSpeedDeltaKmh == 0.0
    ensures RunZoneScenario(input, obs, scenario, None).deltas.roadsTonnes == 0.0
  {
    ScenarioResultRoadsUnmoved(input, obs, scenario, RunZoneScenario(input, obs, scenario, None));
  }
}

=== FILE: types.dfy ===
/** The record shapes of the engine (types.ts). Every record is an immutable value. */
module Types {
  import opened Wrappers

  /** The closed set of factors-pack identifiers. */
  datatype PackId = FI | DE | US | IN | EU | GLOBAL

  /** Coefficients of the speed/consumption polynomial of one vehicle class. */
  datatype SpeedCurveCoeffs = SpeedCurveCoeffs(
    vehicleClass: string,
    euroClass: string,
    alpha: real, beta: real, gamma: real, delta: real,
    epsilon: real, zeta: real, eta: real)

  /** Shares of each powertrain in one vehicle class. */
  datatype FleetMix = FleetMix(petrol: real, diesel: real, cng: real, ev: real)

  /** Heavy-duty shares; the EV share is optional. */
  datatype HeavyDutyMix = HeavyDutyMix(diesel: real, cng: real, ev: Option<real>)

  datatype FleetMixes = FleetMixes(
    passengerCar: FleetMix,
    lightCommercial: FleetMix,
    heavyDuty: HeavyDutyMix)

  /** g CO₂ per litre of petrol and diesel, g CO₂ per kWh of CNG and grid electricity. */
  datatype FuelCo2Factors = FuelCo2Factors(
    petrolPerLitre: real,
    dieselPerLitre: real,
    cngPerKwh: real,
    gridPerKwh: real)

  datatype PackMeta = PackMeta(source: string, dataYear: int)

  datatype FactorsPack = FactorsPack(
    id: PackId,
    title: string,
    fleetMix: FleetMixes,
    fuelCo2Factors: FuelCo2Factors,
    meta: PackMeta)

  datatype QualityFlag = Q1 | Q2 | Q3 | Qx

  datatype Uncertainty = Uncertainty(lowMultiplier: real, highMultiplier: real)

  datatype QualityInfo = QualityInfo(flag: QualityFlag, uncertainty: Uncertainty, notes: seq<string>)

  /** Emissions per module, in tonnes CO₂e. */
  datatype ByModule = ByModule(roadsFleet: real, roadsEv: real, aviation: real)

  datatype RunMetadata = RunMetadata(
    edgesSampled: nat,
    timeWindowMin: real,
    weatherTempC: real,
    gridIntensity: real,
    fleetShares: FleetMix)

  datatype EmissionsResult = EmissionsResult(
    co2eTonnes: real,
    lowEstimateTonnes: real,
    highEstimateTonnes: real,
    qualityInfo: QualityInfo,
    factorsPackId: PackId,
    byModule: ByModule,
    metadata: RunMetadata)

  /** Temperature in °C, pressure in hPa, wind speed in m/s, wind bearing ("from") in degrees. */
  datatype Weather = Weather(temp: real, pressure: real, windSpeed: real, windDeg: real)

  datatype Edge = Edge(id: string, lengthKm: real, bearing: real, gradePercent: real)

  /** The zone request; the polygon is opaque to the engine and is not represented. */
  datatype ZoneInput = ZoneInput(countryIso2: string, timeWindowMinutes: real)

  datatype ScenarioInput = ScenarioInput(
    evShareDelta: real,
    urbanSpeedDeltaKmh: real,
    shortHaulFlightReduction: real)

  datatype Deltas = Deltas(totalTonnes: real, totalPercent: real, roadsTonnes: real, aviationTonnes: real)

  datatype ScenarioResult = ScenarioResult(baseline: EmissionsResult, scenario: EmissionsResult, deltas: Deltas)

  datatype ScenarioPreset = ScenarioPreset(id: string, title: string, description: string, input: ScenarioInput)

  datatype ScenarioRun = ScenarioRun(id: string, title: string, result: ScenarioResult)

  datatype ExperimentResult = ExperimentResult(baseline: ScenarioResult, scenarios: seq<ScenarioRun>)
}

=== FILE: wrappers.dfy ===
/** Optional values, used for the optional fields of the source's records
    (override fields, the heavy-duty EV share). */
module Wrappers {

  datatype Option<+T> = None | Some(value: T) {

    /** The value, or `default` when absent. */
    function GetOr(default: T): T {
      match this
      case Some(v) => v
      case None => default
    }
  }

  /** JavaScript's `x || 0` on an optional number: an absent value reads as 0
      (and a present 0 stays 0). NaN is not modelled. */
  function OrZero(x: Option<real>): (r: real)
    ensures x.None? ==> r == 0.0
    ensures x.Some? ==> r == x.value
  {
    x.GetOr(0.0)
  }
}
